=== FILE: README.md ===
# IoT heating demo: thermostats, device, AMQP client and temperature analyzer

A Dafny model of the decision and message logic of the EnMasse IoT
heating demo. A simulated heating device is written to publish its
temperature periodically. As the code stands it never starts doing so
(see "Behaviour worth knowing" below). A Spark job (`TemperatureAnalyzer`)
reduces each window to the maximum per device and republishes it as a
`DeviceTemperature`. A thermostat
compares each maximum with a band `[minTemp, maxTemp]` and sends `open`
or `close` to the device's control address, `prefix/deviceId`. The
device applies a command to its valve when the command carries the
device's own id. The device talks to the broker through `AmqpClient`,
which caches one Proton sender per address.

Modules, one per file:

- `Java` (`java.dfy`): Java `null` as `Option`, thrown exceptions as
  `Result.Err(Fault)`, 32-bit `int`, `Integer.parseInt` and
  `Integer.toString`, and a proof that printing then parsing an `int`
  gives it back.
- `Json` (`json.dfy`): a Vert.x `JsonObject` as a finite map from key to
  `Str | Int | Null | Other`, with `getString`, `getInteger` and `put`.
  JSON text is a `Codec` parameter. `Faithful(codec)` says its decoder
  reads back what its encoder writes.
- `Proton` (`proton.dfy`): AMQP message bodies (`AmqpValue`, `Data`,
  any other section, no body) and messages.
- `Threshold` (`threshold.dfy`): the open/close decision both thermostats
  take, and runs of samples.
- `Thermostat` (`thermostat.dfy`) and `Controller` (`controller.dfy`):
  the two thermostat copies, in `iot/thermostat` and `iot/controller`.
- `Heating` (`heating_device.dfy`): `HeatingDevice`.
- `AmqpTransport` (`amqp_client.dfy`): `AmqpClient` as a state machine
  over its fields. The broker's and Proton's answers are inputs. These
  answers are whether a handshake succeeds and whether a sender reports
  itself open.
- `DeviceTemperatures` (`device_temperature.dfy`) and `Analyzer`
  (`temperature_analyzer.dfy`): the record and the pure steps of the
  Spark job.
- `Interop` (`interop.dfy`): what happens when one component's messages
  reach another, as the code is written.

## Behaviour worth knowing

The model follows the code as written. Several consequences of that code
are proved:

- Both thermostats are stateless. Every out-of-band sample produces a
  command, and nothing suppresses repeats (`Threshold.RunCountsEverySample`,
  `Threshold.RepeatedHotSamplesRepeatClose`).
- `AmqpClient.send` drops a message when its sender does not report itself
  open. Nothing queues it for later (`AmqpTransport.Send`).
- `AmqpClient.receive` never records the receiver it creates. A second
  `receive` on the same address opens a second receiver, and `disconnect`
  closes only senders (`AmqpTransport.ReceiveTwiceOpensTwo`,
  `AmqpTransport.DisconnectClosesOnlySenders`).
- `AmqpClient.connect` never calls its handler. A delivery completion calls
  the `sendCompletionHandler` field, which nothing assigns, so it throws
  (`AmqpTransport.Connect`, `AmqpTransport.Reachable`).
- `HeatingDevice.init` looks up a `(String, int, Vertx)` constructor by
  reflection. Only `AmqpClient` has one, so naming `MqttClient` also falls
  back to AMQP (`Heating.Init`, `Heating.InitAlwaysAmqp`).
- Together, the last two points mean that a heating device never runs its
  `connected` callback. `HeatingDevice.run` passes that callback to an AMQP
  client's `connect`, which ignores it. The device therefore never
  subscribes to its control address and never publishes a temperature
  (`Interop.DeviceNeverRunsConnected`). The device's handler, subscription
  and telemetry are modelled as the code would run them if `connected` were
  called.
- The thermostat in `iot/controller` writes and reads `deviceId`, while the
  device and the analyzer use `device-id` (`Interop.ControllerMissesAnalyzerId`,
  `Interop.ControllerCommandCrashesDevice`).

## Model

| member | source | states |
|---|---|---|
| `Java.ParseInt` | iot/thermostat/src/main/java/io/enmasse/iot/controller/thermostat/Thermostat.java:153-154 | `Integer.parseInt` succeeds exactly on a numeral (an optional sign, then at least one decimal digit) whose value fits in an `int`, and reads it as that value. Anything else, `null` included, throws NumberFormatException. The body is Java's digit loop, which accumulates the negated value against a limit |
| `Java.IntToStringRoundTrip` | iot/spark-driver/src/main/java/io/enmasse/iot/DeviceTemperature.java:60-64 | parsing the decimal text that `toString` prints for an `int` gives the same `int` back |
| `Json.GetStringAndInt` | iot/spark-driver/src/main/java/io/enmasse/iot/DeviceTemperature.java:84-87 | reading an id with `getString` and a temperature with `getInteger` into an `int`: a non-string id or a non-number temperature throws ClassCastException; a missing or null temperature throws NullPointerException; on success the two getters return exactly the values read |
| `Threshold.Decide` | iot/thermostat/src/main/java/io/enmasse/iot/controller/thermostat/Thermostat.java:108-114 | `open` exactly when the temperature is below the minimum; `close` exactly when it is not below the minimum and is above the maximum, so `open` wins when min > max; nothing exactly when the temperature lies within the band |
| `Threshold.FromName` | iot/clients/src/main/java/io/enmasse/iot/device/impl/HeatingDevice.java:127-132 | only the strings "open" and "close" name a valve operation, and each names the operation whose wire name it is |
| `Threshold.RunIsStateless` | iot/thermostat/src/main/java/io/enmasse/iot/controller/thermostat/Thermostat.java:108-114 | no state carries over between samples: the commands for two runs back to back are the first run's commands followed by the second run's |
| `Threshold.RunCountsEverySample` | iot/controller/src/main/java/io/enmasse/iot/controller/thermostat/Thermostat.java:77-83 | there is no debounce: a run yields exactly one command per out-of-band sample |
| `Threshold.RepeatedHotSamplesRepeatClose` | iot/thermostat/src/main/java/io/enmasse/iot/controller/thermostat/Thermostat.java:108-113 | with band [15, 25], the samples 30, 28, 26 give three `close` commands |
| `Thermostat.LoadSettings` | iot/thermostat/src/main/java/io/enmasse/iot/controller/thermostat/Thermostat.java:150-154 | the addresses and both temperatures are the file's values when present and the defaults ("max", "control", 15, 25) otherwise; start-up fails exactly when a temperature is not an `int` |
| `Thermostat.DefaultSettings` | iot/thermostat/src/main/java/io/enmasse/iot/controller/thermostat/Thermostat.java:150-154 | with an empty properties file the thermostat uses address "max", prefix "control" and band [15, 25] |
| `Thermostat.Options` | iot/thermostat/src/main/java/io/enmasse/iot/controller/thermostat/Thermostat.java:66-72 | SSL is on exactly when a server certificate is configured; the certificate is then trusted and host-name verification is disabled; otherwise the options keep their defaults |
| `Thermostat.SendCommand` | iot/thermostat/src/main/java/io/enmasse/iot/controller/thermostat/Thermostat.java:116-127 | the target is `controlPrefix + "/" + deviceId`, with a null id printed as "null"; the message address is that target; the payload has exactly the keys `device-id`, `operation` and `max`, holding the id, the command and the temperature, which is stored as that JSON integer itself; the body is the payload's JSON text in a Data section |
| `Thermostat.AdjustTemperature` | iot/thermostat/src/main/java/io/enmasse/iot/controller/thermostat/Thermostat.java:108-114 | exactly one command is built when the sample is out of band and none otherwise; it is "open" below the minimum and "close" otherwise |
| `Thermostat.HandlePayload` | iot/thermostat/src/main/java/io/enmasse/iot/controller/thermostat/Thermostat.java:99-105 | the notification's `device-id` (string) and `temperature` (int) are read, and the decision is taken on exactly those values; a read that throws sends nothing |
| `Thermostat.HandleNotification` | iot/thermostat/src/main/java/io/enmasse/iot/controller/thermostat/Thermostat.java:98-106 | only a Data body is accepted: any other section throws ClassCastException, a missing body NullPointerException, and text that is not a JSON object fails to decode |
| `Controller.LoadConfig` | iot/controller/src/main/java/io/enmasse/iot/controller/thermostat/Thermostat.java:110-121 | each setting, the port and both temperatures included, takes its environment variable when set and its default otherwise; start-up fails exactly when the port or a temperature is not an `int` |
| `Controller.DefaultConfig` | iot/controller/src/main/java/io/enmasse/iot/controller/thermostat/Thermostat.java:111-121 | with no variables set: host localhost, port 5672, user test/test, notification address "alarm", prefix "control", band [15, 25] |
| `Controller.SendCommand` | iot/controller/src/main/java/io/enmasse/iot/controller/thermostat/Thermostat.java:85-93 | the sender target is `controlPrefix + "/" + deviceId`; the payload has exactly the keys `deviceId` and `operation`; the message itself has no address |
| `Controller.AdjustTemperature` | iot/controller/src/main/java/io/enmasse/iot/controller/thermostat/Thermostat.java:77-83 | one command exactly when the sample is out of band: "open" below the minimum, "close" otherwise |
| `Controller.HandlePayload` | iot/controller/src/main/java/io/enmasse/iot/controller/thermostat/Thermostat.java:70-74 | the notification is read under `deviceId`, not `device-id`, plus `temperature`, and the decision is taken on those values |
| `Controller.HandleNotification` | iot/controller/src/main/java/io/enmasse/iot/controller/thermostat/Thermostat.java:69-75 | only a Data body holding a JSON object is accepted; other bodies throw |
| `Heating.Configure` | iot/clients/src/main/java/io/enmasse/iot/device/impl/HeatingDevice.java:175-176 | the control address property becomes `prefix/id`, with missing values printed as "null"; every other property is unchanged |
| `Heating.ChooseTransport` | iot/clients/src/main/java/io/enmasse/iot/device/impl/HeatingDevice.java:82 | `Class.forName` (with the constructor lookup, construction and cast that follow it) yields the AMQP class exactly for its name and the MQTT class exactly for its name; every other name, or `null`, is `Invalid`, because the lookup, the construction or the cast throws and the exception is caught |
| `Heating.Instantiate` | iot/clients/src/main/java/io/enmasse/iot/device/impl/HeatingDevice.java:82-84 | reflective construction succeeds only for `AmqpClient`, whose constructor has the looked-up signature, and yields a client on the given host and port |
| `Heating.Init` | iot/clients/src/main/java/io/enmasse/iot/device/impl/HeatingDevice.java:64-91 | a missing sensor range throws NullPointerException; with the range present, `init` succeeds exactly when the port is an `int` and otherwise throws NumberFormatException; the client uses the configured host and port, and when the configured class cannot be instantiated it is an AMQP client |
| `Heating.InitAlwaysAmqp` | iot/clients/src/main/java/io/enmasse/iot/device/impl/HeatingDevice.java:78-90 | whichever class is named, a device with a sensor range and a numeric port initialises, with an AMQP client on the configured host and port |
| `Heating.HandleControl` | iot/clients/src/main/java/io/enmasse/iot/device/impl/HeatingDevice.java:122-133 | a message that is not a JSON object fails to decode; otherwise the command is handled as its JSON object says |
| `Heating.HandleCommand` | iot/clients/src/main/java/io/enmasse/iot/device/impl/HeatingDevice.java:123-132 | a non-string `device-id` throws ClassCastException and a missing one NullPointerException; a foreign id changes nothing; with the device's own id, a non-string operation throws ClassCastException, "open" opens the valve, "close" closes it and any other operation does nothing; a valve call happens only for the device's own id |
| `Heating.Connected` | iot/clients/src/main/java/io/enmasse/iot/device/impl/HeatingDevice.java:136-141 | the device subscribes to its control-address property; publishing to the temperature-address property is set up exactly when the update interval is an `int` of at least 1; a non-numeric interval throws NumberFormatException and one below 1 is refused by the timer with IllegalArgumentException |
| `Heating.SubscribesToOwnControlAddress` | iot/clients/src/main/java/io/enmasse/iot/device/impl/HeatingDevice.java:175-176 | a device started by `main` subscribes to exactly `prefix/id` |
| `Heating.Tick` | iot/clients/src/main/java/io/enmasse/iot/device/impl/HeatingDevice.java:141-150 | the telemetry goes to the temperature address; its payload has exactly the keys `device-id` and `temperature`, holding the configured id and the sensor reading, stored as that JSON integer itself |
| `AmqpTransport.Create` | iot/clients/src/main/java/io/enmasse/iot/transport/AmqpClient.java:45-47 | a new client has no connection, no caches and no handlers |
| `AmqpTransport.CreateIsValid` | iot/clients/src/main/java/io/enmasse/iot/transport/AmqpClient.java:45-47 | a new client satisfies the client invariant |
| `AmqpTransport.Connect` | iot/clients/src/main/java/io/enmasse/iot/transport/AmqpClient.java:60-89 | after a successful handshake the connection is open and both caches are empty, whether they were null or populated; a failed handshake changes nothing; the caller's handler is never called; host, port and both handler fields are untouched |
| `AmqpTransport.Send` | iot/clients/src/main/java/io/enmasse/iot/transport/AmqpClient.java:111-133 | before any connect it throws; a cached sender is reused, opening no link and leaving the client unchanged; otherwise exactly one sender is created, opened and cached for the address; the step does exactly that opening, followed, when the sender reports itself open, by one transmission of the message, addressed to the send address, on the address's cached sender with the client's own completion field as its callback; nothing else happens, and the caller's handler is never called |
| `AmqpTransport.SendIgnoresHandler` | iot/clients/src/main/java/io/enmasse/iot/transport/AmqpClient.java:111-131 | the completion handler passed to `send` has no effect on the step |
| `AmqpTransport.SendTwiceReusesSender` | iot/clients/src/main/java/io/enmasse/iot/transport/AmqpClient.java:113-123 | a second send to the same address opens no link, leaves the client as the first send left it, and transmits on the same sender |
| `AmqpTransport.DeliveryCompleted` | iot/clients/src/main/java/io/enmasse/iot/transport/AmqpClient.java:127-130 | a delivery completion calls the client's completion field, and throws when that field is null |
| `AmqpTransport.Receive` | iot/clients/src/main/java/io/enmasse/iot/transport/AmqpClient.java:136-148 | the receiver cache never changes; for an uncached address a new receiver is opened on that address |
| `AmqpTransport.ReceiveTwiceOpensTwo` | iot/clients/src/main/java/io/enmasse/iot/transport/AmqpClient.java:139-146 | two `receive` calls on one address open two distinct receivers |
| `AmqpTransport.ReceiverHandler` | iot/clients/src/main/java/io/enmasse/iot/transport/AmqpClient.java:150-157 | only an AmqpValue body reaches the received handler, as the receiver's address and the value's text; a Data or sequence body throws ClassCastException; a missing body, or a missing handler, throws NullPointerException |
| `AmqpTransport.SetReceivedHandler` | iot/clients/src/main/java/io/enmasse/iot/transport/Client.java:92-95 | installs the received handler, replacing the previous one, and changes nothing else |
| `AmqpTransport.Disconnect` | iot/clients/src/main/java/io/enmasse/iot/transport/AmqpClient.java:93-108 | before any connect it throws; otherwise it closes exactly the cached senders and receivers, leaves both caches empty and closes the connection, leaving host, port and handlers as they were |
| `AmqpTransport.DisconnectTwice` | iot/clients/src/main/java/io/enmasse/iot/transport/AmqpClient.java:93-108 | a second `disconnect` succeeds, closes no link and leaves the client as the first left it |
| `AmqpTransport.DisconnectClosesOnlySenders` | iot/clients/src/main/java/io/enmasse/iot/transport/AmqpClient.java:96-101 | in a valid client, the links `disconnect` closes are exactly the cached senders |
| `AmqpTransport.ApplyPreservesValid` | iot/clients/src/main/java/io/enmasse/iot/transport/AmqpClient.java:60-148 | every entry point keeps the client invariant: caches exist together and only after a connection, the receiver cache is empty, each cached sender sits under its own address, no two cached senders are the same link, and the completion field is null |
| `AmqpTransport.ReplayPreservesValid` | iot/clients/src/main/java/io/enmasse/iot/transport/AmqpClient.java:60-148 | any sequence of entry points keeps the client invariant |
| `AmqpTransport.Reachable` | iot/clients/src/main/java/io/enmasse/iot/transport/AmqpClient.java:60-148 | in every client reachable from construction the receiver cache is null or empty, there is at most one distinct sender per address, and every delivery completion throws |
| `DeviceTemperatures.ToJson` | iot/spark-driver/src/main/java/io/enmasse/iot/DeviceTemperature.java:71-76 | the JSON object has exactly the keys `device-id` and `temperature`, and reading them back gives the id, with null for a null id, and the temperature; the `temperature` entry is that JSON integer itself |
| `DeviceTemperatures.FromJson` | iot/spark-driver/src/main/java/io/enmasse/iot/DeviceTemperature.java:84-87 | on success the record holds exactly what `getString` and `getInteger` read; it succeeds whenever both reads succeed with a temperature present; otherwise it throws what the reads throw: ClassCastException for a non-string id or non-number temperature, NullPointerException for a missing or null temperature |
| `DeviceTemperatures.FromText` | iot/spark-driver/src/main/java/io/enmasse/iot/DeviceTemperature.java:95-98 | `fromJson(String)` fails to decode text that is not a JSON object, and otherwise equals `fromJson` of the parsed object |
| `DeviceTemperatures.RoundTrip` | iot/spark-driver/src/main/java/io/enmasse/iot/DeviceTemperature.java:71-87 | `fromJson(toJson(d))` is `d`, id and temperature alike |
| `DeviceTemperatures.TextRoundTrip` | iot/spark-driver/src/main/java/io/enmasse/iot/DeviceTemperature.java:71-98 | the round trip also holds through JSON text, for a faithful codec |
| `DeviceTemperatures.ToString` | iot/spark-driver/src/main/java/io/enmasse/iot/DeviceTemperature.java:60-64 | the text starts with `DeviceTemperature(deviceId=` and ends with `)`; its partner `ToStringReadsBack` shows that both fields read back from it |
| `DeviceTemperatures.ToStringReadsBack` | iot/spark-driver/src/main/java/io/enmasse/iot/DeviceTemperature.java:60-64 | reading the `toString` text back (the id after the first `=` up to the last `,`, the temperature as the numeral after the last `=`) gives the id as Java prints it and the exact temperature |
| `DeviceTemperatures.NullIdPrintsAsNull` | iot/spark-driver/src/main/java/io/enmasse/iot/DeviceTemperature.java:60-64 | a null id and the id "null" print alike, so `toString` loses that distinction |
| `Analyzer.LoadSettings` | iot/spark-driver/src/main/java/io/enmasse/iot/TemperatureAnalyzer.java:57-79 | host and port default to localhost:5672 and are overridden only when their variables are set, where a non-numeric port fails; the credentials are the variables or null; the addresses are "temperature" and "max" |
| `Analyzer.DecodeBody` | iot/spark-driver/src/main/java/io/enmasse/iot/TemperatureAnalyzer.java:103-114 | an AmqpValue body and a Data body are both read with `fromJson` of their text; any other body, or none, makes the converter return `null` (the model's `None`) |
| `Analyzer.MaxReducer` | iot/spark-driver/src/main/java/io/enmasse/iot/TemperatureAnalyzer.java:125-131 | the result is at least each input and equals one of them |
| `Analyzer.MaxReducerCommutes` | iot/spark-driver/src/main/java/io/enmasse/iot/TemperatureAnalyzer.java:125-131 | the reducer is commutative |
| `Analyzer.MaxReducerAssociates` | iot/spark-driver/src/main/java/io/enmasse/iot/TemperatureAnalyzer.java:125-131 | the reducer is associative |
| `Analyzer.ReduceByKey` | iot/spark-driver/src/main/java/io/enmasse/iot/TemperatureAnalyzer.java:124-132 | folding the reducer per key maps each key to the largest value paired with it, and holds no other key |
| `Analyzer.ReduceByKeyOrderFree` | iot/spark-driver/src/main/java/io/enmasse/iot/TemperatureAnalyzer.java:124-132 | the per-key reduction does not depend on the order or repetition of the pairs |
| `Analyzer.Project` | iot/spark-driver/src/main/java/io/enmasse/iot/TemperatureAnalyzer.java:119-121 | each record becomes the pair (device id, temperature), one pair per record, in order |
| `Analyzer.WindowMaxIsPerDeviceMax` | iot/spark-driver/src/main/java/io/enmasse/iot/TemperatureAnalyzer.java:119-132 | in a window, every device gets a value at least each of its temperatures, and every value is a temperature that device reported |
| `Analyzer.MaxMessage` | iot/spark-driver/src/main/java/io/enmasse/iot/TemperatureAnalyzer.java:146-167 | each reduced pair is sent to "max" as a Data body holding the JSON of `DeviceTemperature(key, max)` |
| `Analyzer.MaxMessageReadsBack` | iot/spark-driver/src/main/java/io/enmasse/iot/TemperatureAnalyzer.java:162-167 | decoding what the analyzer publishes gives back the key and maximum it reduced |
| `Interop.AnalyzerFeedsThermostat` | iot/thermostat/src/main/java/io/enmasse/iot/controller/thermostat/Thermostat.java:98-106 | the thermostat reads an analyzer message as its exact device id and maximum, and decides on them |
| `Interop.ControllerMissesAnalyzerId` | iot/controller/src/main/java/io/enmasse/iot/controller/thermostat/Thermostat.java:70-72 | fed a `DeviceTemperature` document, the controller finds no `deviceId`, and an out-of-band maximum yields a command addressed to `prefix/null` |
| `Interop.ThermostatCommandDrivesValve` | iot/clients/src/main/java/io/enmasse/iot/device/impl/HeatingDevice.java:122-133 | a thermostat command read by the device it names makes exactly the valve call the thermostat decided |
| `Interop.ThermostatCommandIgnoredElsewhere` | iot/clients/src/main/java/io/enmasse/iot/device/impl/HeatingDevice.java:123-125 | the same command read by another device changes nothing |
| `Interop.ControllerCommandCrashesDevice` | iot/clients/src/main/java/io/enmasse/iot/device/impl/HeatingDevice.java:123-124 | a controller command has no `device-id`, so the device throws NullPointerException instead of driving its valve |
| `Interop.ThermostatCommandRejectedByAmqpClient` | iot/clients/src/main/java/io/enmasse/iot/transport/AmqpClient.java:150-156 | a thermostat command travels in a Data section, which the AMQP client's receive path rejects with ClassCastException |
| `Interop.TelemetryReachesAnalyzer` | iot/clients/src/main/java/io/enmasse/iot/device/impl/HeatingDevice.java:141-152 | the telemetry of one tick, sent through a connected AMQP client on an open sender to the device's temperature address, is transmitted to that address, and the analyzer decodes it as the device's id and reading |
| `Interop.DeviceNeverRunsConnected` | iot/clients/src/main/java/io/enmasse/iot/device/impl/HeatingDevice.java:93-110 | an initialised device always holds an AMQP client, whose `connect` never calls the handler `run` passes, so `connected` never runs |

## Left out

- Asynchrony: the Vert.x event loop, `runOnContext`, Proton link negotiation
  and the Spark streaming context. Each handler body is one atomic step.
  Proton's and the broker's answers are inputs: the handshake outcome and
  a sender's `isOpen()`.
- Spark windowing, checkpointing and broadcast variables. One window is the
  sequence of records it holds. `WindowMax` is the reduction of that one
  window.
- What the Spark AMQP stream does with a record for which the message
  converter returns `null` (`Analyzer.DecodeBody`'s `None`): that is
  library behaviour outside the demo's code.
- The per-record connection the analyzer opens to publish a maximum, and
  the fresh sender each thermostat opens and closes per command. The model
  produces the message that would be sent. Whether the link attaches is
  not modelled.
- JSON text parsing and printing: the `Codec` parameter. Byte-to-text
  conversion (UTF-8, the platform charset) is also left out: a Data
  section holds the text its bytes encode.
- JSON values other than strings, integral numbers and `null` are the
  single `Other` value. Both getters reject it with ClassCastException,
  as `getString` and `getInteger` do for booleans, arrays and objects.
  Fractional numbers, which `getInteger` would truncate, are not modelled.
- `Java.ParseInt` accepts ASCII digits only; `Integer.parseInt` also accepts
  other Unicode decimal digits.
- `MqttClient`, `AppCredentials`, `DHT22` and the `Valve` actuator. The
  `Valve` class is not part of this model, so the device's handler
  returns the valve call it makes instead of a valve state. The sensor
  reading is a parameter of `Heating.Tick`.
- Properties-file and environment reading beyond the keys the core uses.
  Properties and the environment are maps.
- `Heating.Init`: the property naming the transport class is not defined
  in `DeviceConfig`, so the class name is a parameter instead of a
  property lookup.
- `Interop.TelemetryReachesAnalyzer`: a device without a temperature-address
  property would send to a `null` address. Link addresses are strings in
  the model, so that case is not modelled.
- `Heating.Tick`: `send` is called with the payload's bytes although
  `Client.send` takes a `String`. The model sends the payload's text.
- Logging, `System.in`, `vertx.close`, and the reflection mechanics
  beyond which constructor exists.
- The accessors `deviceId()` and `temperature()` are the destructors of
  the `DeviceTemperature` datatype, so they need no member of their own.

=== FILE: amqp_client.dfy ===
/** `AmqpClient`: one Proton connection with a cache of senders and a cache
    of receivers, both keyed by address. Each operation is one atomic step
    of the event loop. What Proton and the broker decide (whether a
    handshake succeeds, whether a link reports itself open) is an input. */
module AmqpTransport {
  import opened Java
  import opened Proton

  type Address = string

  /** The identity of a Vert.x handler object. */
  type HandlerId = nat

  /** A Proton link, sender or receiver: its identity and its address. */
  datatype Link = Link(id: nat, address: Address)

  /** A Proton connection: its identity and whether it is still open. */
  datatype Connection = Connection(id: nat, open: bool)

  /** The fields of an `AmqpClient`. `None` is a field still `null`.
      `nextLink` is the identity the next link Proton creates will get. */
  datatype Client = Client(
    hostname: Option<string>,
    port: Int32,
    connection: Option<Connection>,
    senders: Option<map<Address, Link>>,
    receivers: Option<map<Address, Link>>,
    receivedHandler: Option<HandlerId>,
    sendCompletionHandler: Option<HandlerId>,
    nextLink: nat)

  /** What a `MessageDelivery` carries to the received handler. */
  datatype Delivery = Delivery(address: Address, message: string)

  /** What a step does outside the client's own fields. */
  datatype Effect =
    | OpenConnection(connection: Connection)
    | OpenLink(link: Link)
    | Transmit(sender: Link, message: Message, onDelivery: Option<HandlerId>)
    | Notify(handler: HandlerId, delivery: Option<Delivery>)

  datatype Step = Step(client: Client, effects: seq<Effect>)

  /** `new AmqpClient(hostname, port, vertx)`: every other field is `null`. */
  function Create(hostname: Option<string>, port: Int32): (c: Client)
    ensures c.connection.None? && c.senders.None? && c.receivers.None?
    ensures c.receivedHandler.None? && c.sendCompletionHandler.None?
    ensures c.hostname == hostname && c.port == port
  {
    Client(hostname, port, None, None, None, None, None, 0)
  }

  /** Every cached link sits under its own address, was created by this
      client, and no two cached links are the same link. */
  predicate WellFormedLinks(m: map<Address, Link>, nextLink: nat) {
    && (forall a | a in m :: m[a].address == a && m[a].id < nextLink)
    && (forall a, b | a in m && b in m && a != b :: m[a].id != m[b].id)
  }

  /** The invariant of every client the core can reach: both caches exist
      together and only after a connection; the receiver cache stays empty;
      nothing ever sets the send-completion handler. */
  predicate Valid(c: Client) {
    && (c.senders.Some? <==> c.receivers.Some?)
    && (c.senders.Some? ==> c.connection.Some?)
    && (c.receivers.Some? ==> c.receivers.value == map[])
    && c.sendCompletionHandler.None?
    && (c.senders.Some? ==> WellFormedLinks(c.senders.value, c.nextLink))
  }

  lemma CreateIsValid(hostname: Option<string>, port: Int32)
    ensures Valid(Create(hostname, port))
  {
  }

  /** `connect(username, password, handler)`. `handshake` is the broker's
      answer: the new connection's identity, or `None` for a failure. On
      success the connection is opened and both caches are emptied, whether
      they were `null` or populated. The caller's handler is never called,
      on either path; the credentials only influence `handshake`. */
  function Connect(c: Client, handler: HandlerId, handshake: Option<nat>): (s: Step)
    ensures handshake.None? ==> s == Step(c, [])
    ensures handshake.Some? ==> s.client.connection == Some(Connection(handshake.value, true))
    ensures handshake.Some? ==> s.client.senders == Some(map[]) && s.client.receivers == Some(map[])
    ensures handshake.Some? ==> s.effects == [OpenConnection(Connection(handshake.value, true))]
    ensures forall e | e in s.effects :: !e.Notify?
    ensures s.client.receivedHandler == c.receivedHandler && s.client.nextLink == c.nextLink
    ensures s.client.hostname == c.hostname && s.client.port == c.port
            && s.client.sendCompletionHandler == c.sendCompletionHandler
  {
    match handshake
    case None => Step(c, [])
    case Some(id) =>
      var connection := Connection(id, true);
      Step(c.(connection := Some(connection), senders := Some(map[]), receivers := Some(map[])),
           [OpenConnection(connection)])
  }

  /** `send(address, message, handler)`. A sender is created, opened and
      cached only when none is cached for the address; otherwise the cached
      one is reused and the client does not change. The message, addressed
      to `address`, is transmitted only if the sender reports itself open
      (`isOpen`); otherwise it is dropped. Its delivery is reported to the
      client's own completion field, never to `handler`. */
  function Send(c: Client, address: Address, message: string, handler: HandlerId, isOpen: bool): (r: Result<Step>)
    ensures r.Err? <==> c.senders.None? || (address !in c.senders.value && c.connection.None?)
    ensures r.Err? ==> r.fault == NullPointer
    ensures r.Ok? ==> var s := r.value.client;
      && s.senders.Some? && s.senders.value.Keys == c.senders.value.Keys + {address}
      && s.connection == c.connection && s.receivers == c.receivers
      && s.receivedHandler == c.receivedHandler && s.sendCompletionHandler == c.sendCompletionHandler
      && s.hostname == c.hostname && s.port == c.port
    ensures r.Ok? && address in c.senders.value ==> r.value.client == c
    ensures r.Ok? && address in c.senders.value ==> forall e | e in r.value.effects :: !e.OpenLink?
    ensures r.Ok? && address !in c.senders.value ==>
      && r.value.client.senders.value == c.senders.value[address := Link(c.nextLink, address)]
      && r.value.client.nextLink == c.nextLink + 1
      && |r.value.effects| > 0 && r.value.effects[0] == OpenLink(Link(c.nextLink, address))
      && forall i | 0 < i < |r.value.effects| :: !r.value.effects[i].OpenLink?
    ensures r.Ok? ==> ((exists e | e in r.value.effects :: e.Transmit?) <==> isOpen)
    ensures r.Ok? ==> forall e | e in r.value.effects && e.Transmit? ::
      && e.sender == r.value.client.senders.value[address]
      && e.message == Message(Some(address), AmqpValue(message))
      && e.onDelivery == c.sendCompletionHandler
    ensures r.Ok? ==>
      r.value.effects == (if address in c.senders.value then [] else [OpenLink(Link(c.nextLink, address))])
                         + (if isOpen
                            then [Transmit(r.value.client.senders.value[address],
                                           Message(Some(address), AmqpValue(message)), c.sendCompletionHandler)]
                            else [])
  {
    if c.senders.None? then Err(NullPointer)
    else
      var senders := c.senders.value;
      var created :- if address in senders then Ok(Step(c, []))
        else if c.connection.None? then Err(NullPointer)
        else
          var sender := Link(c.nextLink, address);
          Ok(Step(c.(senders := Some(senders[address := sender]), nextLink := c.nextLink + 1), [OpenLink(sender)]));
      var msg := TextMessage(message).(address := Some(address));
      var sent := Transmit(created.client.senders.value[address], msg, c.sendCompletionHandler);
      if isOpen then
        var effects := created.effects + [sent];
        assert effects[|effects| - 1] == sent;
        Ok(Step(created.client, effects))
      else Ok(created)
  }

  /** The completion handler passed to `send` has no bearing on the step. */
  lemma SendIgnoresHandler(c: Client, address: Address, message: string, h1: HandlerId, h2: HandlerId, isOpen: bool)
    ensures Send(c, address, message, h1, isOpen) == Send(c, address, message, h2, isOpen)
  {
  }

  /** Sending twice to one address opens one sender and transmits both
      messages on it. */
  lemma SendTwiceReusesSender(c: Client, address: Address, m1: string, m2: string, h: HandlerId)
    requires Send(c, address, m1, h, true).Ok?
    ensures var first := Send(c, address, m1, h, true).value;
      var second := Send(first.client, address, m2, h, true);
      && second.Ok?
      && second.value.client == first.client
      && (forall e | e in second.value.effects :: !e.OpenLink?)
      && forall e1, e2 | e1 in first.effects && e1.Transmit? && e2 in second.value.effects && e2.Transmit? ::
           e1.sender == e2.sender
  {
  }

  /** The delivery callback of a transmitted message, which calls the
      client's completion field. */
  function DeliveryCompleted(c: Client): (r: Result<Effect>)
    ensures r.Ok? <==> c.sendCompletionHandler.Some?
    ensures r.Ok? ==> r.value == Notify(c.sendCompletionHandler.value, None)
  {
    match c.sendCompletionHandler
    case Some(h) => Ok(Notify(h, None))
    case None => Err(NullPointer)
  }

  /** `receive(address)`. When no receiver is cached for the address, a new
      one is created and opened, but it is never put in the cache: the
      cache does not change, and the next `receive` on the same address
      creates yet another receiver. */
  function Receive(c: Client, address: Address): (r: Result<Step>)
    ensures r.Err? <==> c.receivers.None? || (address !in c.receivers.value && c.connection.None?)
    ensures r.Err? ==> r.fault == NullPointer
    ensures r.Ok? ==> r.value.client.receivers == c.receivers && r.value.client.senders == c.senders
    ensures r.Ok? && address in c.receivers.value ==> r.value == Step(c, [])
    ensures r.Ok? && address !in c.receivers.value ==>
      r.value == Step(c.(nextLink := c.nextLink + 1), [OpenLink(Link(c.nextLink, address))])
  {
    if c.receivers.None? then Err(NullPointer)
    else if address in c.receivers.value then Ok(Step(c, []))
    else if c.connection.None? then Err(NullPointer)
    else Ok(Step(c.(nextLink := c.nextLink + 1), [OpenLink(Link(c.nextLink, address))]))
  }

  /** `receiverHandler`: the body must be an AmqpValue; its text, with the
      receiver's address, is handed to the received handler. */
  function ReceiverHandler(c: Client, receiver: Link, m: Message): (r: Result<Effect>)
    ensures m.body.Data? || m.body.AmqpSequence? ==> r == Err(ClassCast)
    ensures r.Ok? <==> m.body.AmqpValue? && c.receivedHandler.Some?
    ensures r.Ok? ==> r.value == Notify(c.receivedHandler.value, Some(Delivery(receiver.address, m.body.text)))
    ensures m.body.NoBody? || (m.body.AmqpValue? && c.receivedHandler.None?) ==> r == Err(NullPointer)
  {
    match m.body
    case AmqpValue(text) =>
      (match c.receivedHandler
       case Some(h) => Ok(Notify(h, Some(Delivery(receiver.address, text))))
       case None => Err(NullPointer))
    case Data(_) => Err(ClassCast)
    case AmqpSequence => Err(ClassCast)
    case NoBody => Err(NullPointer)
  }

  /** `Client.receivedHandler(handler)`: installs the handler for incoming
      messages, replacing any previous one. */
  function SetReceivedHandler(c: Client, handler: HandlerId): (s: Client)
    ensures s.receivedHandler == Some(handler)
    ensures s.(receivedHandler := c.receivedHandler) == c
  {
    c.(receivedHandler := Some(handler))
  }

  /** The result of `disconnect`: the client afterwards, the links it closed
      (a set: the caches are hash maps, iterated in no fixed order) and the
      connection it closed. */
  datatype Teardown = Teardown(client: Client, closed: set<Link>, connection: Connection)

  /** `disconnect()`: closes every cached sender and receiver, empties both
      caches, then closes the connection. */
  function Disconnect(c: Client): (r: Result<Teardown>)
    ensures r.Err? <==> c.senders.None? || c.receivers.None? || c.connection.None?
    ensures r.Ok? ==> r.value.closed == c.senders.value.Values + c.receivers.value.Values
    ensures r.Ok? ==> r.value.client.senders == Some(map[]) && r.value.client.receivers == Some(map[])
    ensures r.Ok? ==> r.value.connection == c.connection.value.(open := false)
                      && r.value.client.connection == Some(r.value.connection)
    ensures r.Ok? ==> r.value.client.nextLink == c.nextLink && r.value.client.receivedHandler == c.receivedHandler
    ensures r.Ok? ==> r.value.client.hostname == c.hostname && r.value.client.port == c.port
                      && r.value.client.sendCompletionHandler == c.sendCompletionHandler
  {
    if c.senders.None? || c.receivers.None? || c.connection.None? then Err(NullPointer)
    else
      var closed := c.senders.value.Values + c.receivers.value.Values;
      var connection := c.connection.value.(open := false);
      Ok(Teardown(c.(senders := Some(map[]), receivers := Some(map[]), connection := Some(connection)),
                  closed, connection))
  }

  /** A second `disconnect` closes no link. */
  lemma DisconnectTwice(c: Client)
    requires Disconnect(c).Ok?
    ensures Disconnect(Disconnect(c).value.client).Ok?
    ensures Disconnect(Disconnect(c).value.client).value.closed == {}
    ensures Disconnect(Disconnect(c).value.client).value.client == Disconnect(c).value.client
  {
  }

  /** One entry point of the client, with the environment's answers. */
  datatype Op =
    | ConnectOp(handler: HandlerId, handshake: Option<nat>)
    | SendOp(address: Address, message: string, completion: HandlerId, isOpen: bool)
    | ReceiveOp(address: Address)
    | DisconnectOp
    | SetHandlerOp(handler: HandlerId)

  /** The client after one operation. In a `Valid` client an operation
      that throws does so before it writes any field, so the client is
      left as it was. (Outside `Valid`, `disconnect` with caches but no
      connection clears both caches before it throws.) */
  function Apply(c: Client, op: Op): Client {
    match op
    case ConnectOp(h, handshake) => Connect(c, h, handshake).client
    case SendOp(a, m, h, isOpen) =>
      (match Send(c, a, m, h, isOpen) case Ok(s) => s.client case Err(_) => c)
    case ReceiveOp(a) =>
      (match Receive(c, a) case Ok(s) => s.client case Err(_) => c)
    case DisconnectOp =>
      (match Disconnect(c) case Ok(t) => t.client case Err(_) => c)
    case SetHandlerOp(h) => SetReceivedHandler(c, h)
  }

  /** The client after a sequence of operations. */
  function Replay(c: Client, ops: seq<Op>): Client
    decreases |ops|
  {
    if |ops| == 0 then c else Replay(Apply(c, ops[0]), ops[1..])
  }

  lemma ApplyPreservesValid(c: Client, op: Op)
    requires Valid(c)
    ensures Valid(Apply(c, op))
  {
    match op
    case SendOp(a, m, h, isOpen) =>
      var r := Send(c, a, m, h, isOpen);
      if r.Ok? && a !in c.senders.value {
        var s := r.value.client;
        assert s.senders.value == c.senders.value[a := Link(c.nextLink, a)];
        assert WellFormedLinks(s.senders.value, s.nextLink);
      }
    case _ =>
  }

  lemma {:induction false} ReplayPreservesValid(c: Client, ops: seq<Op>)
    requires Valid(c)
    ensures Valid(Replay(c, ops))
    decreases |ops|
  {
    if |ops| > 0 {
      ApplyPreservesValid(c, ops[0]);
      ReplayPreservesValid(Apply(c, ops[0]), ops[1..]);
    }
  }

  /** In every client reachable from its construction the receiver cache is
      `null` or empty, at most one sender is cached per address and the
      senders are distinct links, and the completion of any transmitted
      message throws instead of reaching a caller. */
  lemma Reachable(hostname: Option<string>, port: Int32, ops: seq<Op>)
    ensures var c := Replay(Create(hostname, port), ops);
      && (c.receivers.None? || c.receivers.value == map[])
      && (c.senders.Some? ==> WellFormedLinks(c.senders.value, c.nextLink))
      && DeliveryCompleted(c) == Err(NullPointer)
  {
    CreateIsValid(hostname, port);
    ReplayPreservesValid(Create(hostname, port), ops);
  }

  /** Consequently `disconnect` only ever closes senders: receivers opened
      by `receive` are left open. */
  lemma DisconnectClosesOnlySenders(c: Client)
    requires Valid(c) && Disconnect(c).Ok?
    ensures Disconnect(c).value.closed == c.senders.value.Values
  {
  }

  /** Two `receive` calls on the same address open two distinct receivers. */
  lemma ReceiveTwiceOpensTwo(c: Client, address: Address)
    requires Valid(c) && Receive(c, address).Ok?
    ensures var first := Receive(c, address).value;
      && Receive(first.client, address).Ok?
      && first.effects == [OpenLink(Link(c.nextLink, address))]
      && Receive(first.client, address).value.effects == [OpenLink(Link(c.nextLink + 1, address))]
  {
  }
}

=== FILE: controller.dfy ===
/** The thermostat of the `iot/controller` module. It takes the same
    decision as the one in `iot/thermostat`, but its documents use the key
    "deviceId", its command carries no temperature, and its message has no
    address of its own (only the link target names the device). */
module Controller {
  import opened Java
  import opened Json
  import opened Proton
  import Threshold

  const DEVICE_ID_KEY := "deviceId"
  const TEMPERATURE_KEY := "temperature"
  const OPERATION_KEY := "operation"

  /** The constructor arguments of the controller's thermostat. */
  datatype Config = Config(
    messagingHost: string,
    messagingPort: Int32,
    username: string,
    password: string,
    notificationAddress: string,
    controlPrefix: string,
    minTemp: Int32,
    maxTemp: Int32)

  /** `Map.getOrDefault` on the process environment. */
  function GetEnv(env: map<string, string>, name: string, default: string): string {
    if name in env then env[name] else default
  }

  /** `main`: every setting comes from an environment variable with a
      default; a port or temperature that is not an `int` aborts start-up. */
  function LoadConfig(env: map<string, string>): (r: Result<Config>)
    ensures r.Ok? ==> r.value.messagingHost == GetEnv(env, "MESSAGING_SERVICE_HOST", "localhost")
    ensures r.Ok? ==> r.value.username == GetEnv(env, "MESSAGING_SERVICE_USERNAME", "test")
    ensures r.Ok? ==> r.value.password == GetEnv(env, "MESSAGING_SERVICE_PASSWORD", "test")
    ensures r.Ok? ==> r.value.notificationAddress == GetEnv(env, "NOTIFICATION_ADDRESS", "alarm")
    ensures r.Ok? ==> r.value.controlPrefix == GetEnv(env, "COMMAND_CONTROL_PREFIX", "control")
    ensures r.Err? <==> ParseInt(Some(GetEnv(env, "MESSAGING_SERVICE_PORT", "5672"))).Err?
                        || ParseInt(Some(GetEnv(env, "MIN_TEMPERATURE", "15"))).Err?
                        || ParseInt(Some(GetEnv(env, "MAX_TEMPERATURE", "25"))).Err?
    ensures r.Ok? ==> && Ok(r.value.messagingPort) == ParseInt(Some(GetEnv(env, "MESSAGING_SERVICE_PORT", "5672")))
                      && Ok(r.value.minTemp) == ParseInt(Some(GetEnv(env, "MIN_TEMPERATURE", "15")))
                      && Ok(r.value.maxTemp) == ParseInt(Some(GetEnv(env, "MAX_TEMPERATURE", "25")))
  {
    var port :- ParseInt(Some(GetEnv(env, "MESSAGING_SERVICE_PORT", "5672")));
    var minTemp :- ParseInt(Some(GetEnv(env, "MIN_TEMPERATURE", "15")));
    var maxTemp :- ParseInt(Some(GetEnv(env, "MAX_TEMPERATURE", "25")));
    Ok(Config(GetEnv(env, "MESSAGING_SERVICE_HOST", "localhost"), port,
              GetEnv(env, "MESSAGING_SERVICE_USERNAME", "test"),
              GetEnv(env, "MESSAGING_SERVICE_PASSWORD", "test"),
              GetEnv(env, "NOTIFICATION_ADDRESS", "alarm"),
              GetEnv(env, "COMMAND_CONTROL_PREFIX", "control"),
              minTemp, maxTemp))
  }

  /** With an empty environment the controller connects to localhost:5672
      as test/test, listens on "alarm" and keeps temperatures in [15, 25]. */
  lemma DefaultConfig()
    ensures LoadConfig(map[]) == Ok(Config("localhost", 5672, "test", "test", "alarm", "control", 15, 25))
  {
    assert DigitsValue("5672") == 5672 by {
      assert "5"[..0] == "";
      assert DigitsValue("5") == 5;
      assert "56"[..1] == "5";
      assert DigitsValue("56") == 56;
      assert "567"[..2] == "56";
      assert DigitsValue("567") == 567;
      assert "5672"[..3] == "567";
    }
    assert DigitsValue("15") == 15 by { assert "15"[..1] == "1"; }
    assert DigitsValue("25") == 25 by { assert "25"[..1] == "2"; }
  }

  /** A control command: the sender's target and the AMQP message. */
  datatype Command = Command(target: string, payload: Object, message: Message)

  /** `sendCommand`: the target is `controlPrefix/deviceId`, the payload
      holds exactly "deviceId" and "operation", and the message itself
      carries no address. */
  function SendCommand(c: Config, codec: Codec, deviceId: Option<string>, command: string): (cmd: Command)
    ensures cmd.target == c.controlPrefix + "/" + Show(deviceId)
    ensures cmd.payload.Keys == {DEVICE_ID_KEY, OPERATION_KEY}
    ensures GetString(cmd.payload, DEVICE_ID_KEY) == Ok(deviceId)
    ensures GetString(cmd.payload, OPERATION_KEY) == Ok(Some(command))
    ensures cmd.message.address.None?
    ensures cmd.message.body == Data(codec.encode(cmd.payload))
  {
    var json := PutString(PutString(map[], DEVICE_ID_KEY, deviceId), OPERATION_KEY, Some(command));
    Command(c.controlPrefix + "/" + Show(deviceId), json, Message(None, Data(codec.encode(json))))
  }

  /** `adjustTemperature`: "open" below the minimum, else "close" above the
      maximum, else nothing. */
  function AdjustTemperature(c: Config, codec: Codec, deviceId: Option<string>, temperature: Int32): (r: Option<Command>)
    ensures r.Some? <==> Threshold.OutOfBand(temperature, c.minTemp, c.maxTemp)
    ensures r.Some? && temperature < c.minTemp ==> r.value == SendCommand(c, codec, deviceId, "open")
    ensures r.Some? && temperature >= c.minTemp ==> r.value == SendCommand(c, codec, deviceId, "close")
  {
    match Threshold.Decide(temperature, c.minTemp, c.maxTemp)
    case Some(op) => Some(SendCommand(c, codec, deviceId, Threshold.Name(op)))
    case None => None
  }

  /** The JSON part of `handleNotification`: "deviceId" read as a string,
      "temperature" as an `int`. */
  function HandlePayload(c: Config, codec: Codec, o: Object): (r: Result<Option<Command>>)
    ensures r.Err? <==> GetStringAndInt(o, DEVICE_ID_KEY, TEMPERATURE_KEY).Err?
    ensures r.Ok? ==> var (id, t) := GetStringAndInt(o, DEVICE_ID_KEY, TEMPERATURE_KEY).value;
                      r.value == AdjustTemperature(c, codec, id, t)
  {
    var (deviceId, temperature) :- GetStringAndInt(o, DEVICE_ID_KEY, TEMPERATURE_KEY);
    Ok(AdjustTemperature(c, codec, deviceId, temperature))
  }

  /** `handleNotification`: the body must be a Data section holding a JSON
      object. */
  function HandleNotification(c: Config, codec: Codec, m: Message): (r: Result<Option<Command>>)
    ensures m.body.AmqpValue? || m.body.AmqpSequence? ==> r == Err(ClassCast)
    ensures m.body.NoBody? ==> r == Err(NullPointer)
    ensures m.body.Data? && codec.decode(m.body.text).None? ==> r == Err(DecodeJson)
    ensures m.body.Data? && codec.decode(m.body.text).Some?
            ==> r == HandlePayload(c, codec, codec.decode(m.body.text).value)
  {
    match m.body
    case Data(text) =>
      var o :- Parse(codec, text);
      HandlePayload(c, codec, o)
    case AmqpValue(_) => Err(ClassCast)
    case AmqpSequence => Err(ClassCast)
    case NoBody => Err(NullPointer)
  }
}

=== FILE: device_temperature.dfy ===
/** `DeviceTemperature`: a device id with a temperature, and its JSON and
    text forms. */
module DeviceTemperatures {
  import opened Java
  import opened Json

  const JSON_DEVICEID := "device-id"
  const JSON_TEMPERATURE := "temperature"

  /** The constructor's arguments are the fields, and the accessors
      `deviceId()` and `temperature()` are this datatype's destructors. */
  datatype DeviceTemperature = DeviceTemperature(deviceId: Option<string>, temperature: Int32)

  /** `toJson`: exactly the two keys, holding the id (JSON `null` for a
      `null` id) and the temperature. */
  function ToJson(d: DeviceTemperature): (o: Object)
    ensures o.Keys == {JSON_DEVICEID, JSON_TEMPERATURE}
    ensures GetString(o, JSON_DEVICEID) == Ok(d.deviceId)
    ensures GetInteger(o, JSON_TEMPERATURE) == Ok(Some(d.temperature))
    ensures o[JSON_TEMPERATURE] == Int(d.temperature)
  {
    PutInt(PutString(map[], JSON_DEVICEID, d.deviceId), JSON_TEMPERATURE, d.temperature)
  }

  /** `fromJson(JsonObject)`: the id is read as a string and the
      temperature unboxed into an `int`; a missing temperature throws. */
  function FromJson(o: Object): (r: Result<DeviceTemperature>)
    ensures r.Ok? ==> GetString(o, JSON_DEVICEID) == Ok(r.value.deviceId)
                      && GetInteger(o, JSON_TEMPERATURE) == Ok(Some(r.value.temperature))
    ensures (GetString(o, JSON_DEVICEID).Ok? && GetInteger(o, JSON_TEMPERATURE).Ok?
             && GetInteger(o, JSON_TEMPERATURE).value.Some?) ==> r.Ok?
    ensures GetString(o, JSON_DEVICEID).Ok? && JSON_TEMPERATURE !in o ==> r == Err(NullPointer)
    ensures r.Err? ==> GetStringAndInt(o, JSON_DEVICEID, JSON_TEMPERATURE).Err?
                       && r.fault == GetStringAndInt(o, JSON_DEVICEID, JSON_TEMPERATURE).fault
  {
    var (id, t) :- GetStringAndInt(o, JSON_DEVICEID, JSON_TEMPERATURE);
    Ok(DeviceTemperature(id, t))
  }

  /** `fromJson(String)`: the text is parsed into a `JsonObject`, which is
      then read by `fromJson(JsonObject)`. */
  function FromText(codec: Codec, text: string): (r: Result<DeviceTemperature>)
    ensures codec.decode(text).None? ==> r == Err(DecodeJson)
    ensures codec.decode(text).Some? ==> r == FromJson(codec.decode(text).value)
  {
    var o :- Parse(codec, text);
    FromJson(o)
  }

  lemma RoundTrip(d: DeviceTemperature)
    ensures FromJson(ToJson(d)) == Ok(d)
  {
  }

  /** The same round trip through JSON text. */
  lemma TextRoundTrip(codec: Codec, d: DeviceTemperature)
    requires Faithful(codec)
    ensures FromText(codec, codec.encode(ToJson(d))) == Ok(d)
  {
  }

  const TO_STRING_PREFIX := "DeviceTemperature(deviceId="
  const TEMPERATURE_LABEL := ",temperature="

  /** `toString`: the record's name with its two fields in parentheses.
      `ToStringReadsBack` shows that both fields can be read back. */
  function ToString(d: DeviceTemperature): (s: string)
    ensures |s| > |TO_STRING_PREFIX| + |TEMPERATURE_LABEL|
    ensures s[..|TO_STRING_PREFIX|] == TO_STRING_PREFIX && s[|s| - 1] == ')'
  {
    TO_STRING_PREFIX + Show(d.deviceId) + TEMPERATURE_LABEL + IntToString(d.temperature) + ")"
  }

  /** The part of `s` after the last `c`; all of `s` when `c` does not occur. */
  function AfterLast(s: string, c: char): (r: string)
    ensures |r| <= |s| && r == s[|s| - |r|..]
    ensures c !in r
    decreases |s|
  {
    if |s| == 0 then ""
    else if s[|s| - 1] == c then ""
    else
      var init := s[..|s| - 1];
      var r := AfterLast(init, c);
      assert init[|init| - |r|..] == r;
      assert s[|s| - 1 - |r|..] == init[|init| - |r|..] + [s[|s| - 1]];
      r + [s[|s| - 1]]
  }

  lemma {:induction false} AfterLastOf(p: string, c: char, q: string)
    requires c !in q
    ensures AfterLast(p + [c] + q, c) == q
    decreases |q|
  {
    var s := p + [c] + q;
    if |q| > 0 {
      assert s[..|s| - 1] == p + [c] + q[..|q| - 1];
      AfterLastOf(p, c, q[..|q| - 1]);
      assert q == q[..|q| - 1] + [q[|q| - 1]];
    }
  }

  /** Reads back what `toString` printed: the id as printed and the
      temperature. */
  function ReadToString(s: string): Option<(string, Int32)> {
    if |s| < |TO_STRING_PREFIX| + |TEMPERATURE_LABEL| + 1 || s[..|TO_STRING_PREFIX|] != TO_STRING_PREFIX
       || s[|s| - 1] != ')' then None
    else
      var inner := s[..|s| - 1];
      var digits := AfterLast(inner, '=');
      var head := inner[..|inner| - |digits|];
      if |head| < |TO_STRING_PREFIX| + |TEMPERATURE_LABEL| || head[|head| - |TEMPERATURE_LABEL|..] != TEMPERATURE_LABEL
      then None
      else
        match ParseInt(Some(digits))
        case Ok(t) => Some((head[|TO_STRING_PREFIX|..|head| - |TEMPERATURE_LABEL|], t))
        case Err(_) => None
  }

  /** The reader recovers an id and a temperature from any text of the
      printed shape whose digits hold no '='. */
  lemma ReadShaped(id: string, digits: string, t: Int32)
    requires '=' !in digits
    requires ParseInt(Some(digits)) == Ok(t)
    ensures ReadToString(TO_STRING_PREFIX + id + TEMPERATURE_LABEL + digits + ")") == Some((id, t))
  {
    var s := TO_STRING_PREFIX + id + TEMPERATURE_LABEL + digits + ")";
    var inner := s[..|s| - 1];
    assert inner == TO_STRING_PREFIX + id + TEMPERATURE_LABEL + digits;
    var labelHead := TEMPERATURE_LABEL[..|TEMPERATURE_LABEL| - 1];
    assert inner == (TO_STRING_PREFIX + id + labelHead) + ['='] + digits;
    AfterLastOf(TO_STRING_PREFIX + id + labelHead, '=', digits);
    assert AfterLast(inner, '=') == digits;
    var head := inner[..|inner| - |digits|];
    assert head == TO_STRING_PREFIX + id + TEMPERATURE_LABEL;
    assert head[|TO_STRING_PREFIX|..|head| - |TEMPERATURE_LABEL|] == id;
    assert head[|head| - |TEMPERATURE_LABEL|..] == TEMPERATURE_LABEL;
    assert s[..|TO_STRING_PREFIX|] == TO_STRING_PREFIX;
  }

  /** `toString` shows the id as Java prints it and the exact temperature. */
  lemma ToStringReadsBack(d: DeviceTemperature)
    ensures ReadToString(ToString(d)) == Some((Show(d.deviceId), d.temperature))
  {
    var digits := IntToString(d.temperature);
    IntToStringAlphabet(d.temperature);
    assert '=' !in digits;
    IntToStringRoundTrip(d.temperature);
    ReadShaped(Show(d.deviceId), digits, d.temperature);
  }

  /** A `null` id and the id "null" print alike. */
  lemma NullIdPrintsAsNull(t: Int32)
    ensures ToString(DeviceTemperature(None, t)) == ToString(DeviceTemperature(Some("null"), t))
  {
  }
}

=== FILE: heating_device.dfy ===
/** The simulated heating device: it chooses its transport, subscribes to
    its own control address, applies open/close commands addressed to it to
    its valve, and periodically publishes its temperature. */
module Heating {
  import opened Java
  import opened Json
  import Threshold

  /** Keys of the device's properties file. */
  const HOSTNAME := "service.hostname"
  const PORT := "service.port"
  const TEMPERATURE_ADDRESS := "service.temperature.address"
  const CONTROL_PREFIX := "service.control.prefix"
  const CONTROL_ADDRESS := "service.control.address"
  const DEVICE_ID := "device.id"
  const UPDATE_INTERVAL := "device.update.interval"
  const DHT22_TEMPERATURE_MIN := "device.dht22.temperature.min"
  const DHT22_TEMPERATURE_MAX := "device.dht22.temperature.max"

  /** Keys of the JSON documents the device reads and writes. */
  const DEVICE_ID_KEY := "device-id"
  const TEMPERATURE_KEY := "temperature"
  const OPERATION_KEY := "operation"

  /** A `java.util.Properties`: an absent key reads as `null`. */
  type Properties = map<string, string>

  function GetProperty(p: Properties, key: string): Option<string> {
    if key in p then Some(p[key]) else None
  }

  /** The control address `main` derives, `String.format("%s/%s", prefix, id)`;
      a missing property prints as "null". */
  function ControlAddress(p: Properties): string {
    Show(GetProperty(p, CONTROL_PREFIX)) + "/" + Show(GetProperty(p, DEVICE_ID))
  }

  /** `main` stores the derived control address back into the properties
      and changes nothing else. */
  function Configure(p: Properties): (q: Properties)
    ensures GetProperty(q, CONTROL_ADDRESS) == Some(ControlAddress(p))
    ensures forall k | k != CONTROL_ADDRESS :: GetProperty(q, k) == GetProperty(p, k)
  {
    p[CONTROL_ADDRESS := ControlAddress(p)]
  }

  /** The transport classes a configuration can name. */
  datatype TransportChoice = AmqpClass | MqttClass | Invalid

  const AMQP_CLIENT_CLASS := "io.enmasse.iot.transport.AmqpClient"
  const MQTT_CLIENT_CLASS := "io.enmasse.iot.transport.MqttClient"

  /** `Class.forName` followed by the constructor lookup, construction
      and cast: only the two transport classes are told apart. Every other
      name, or `null`, is `Invalid`, because one of those steps throws and
      the exception is caught. */
  function ChooseTransport(className: Option<string>): (r: TransportChoice)
    ensures r == AmqpClass <==> className == Some(AMQP_CLIENT_CLASS)
    ensures r == MqttClass <==> className == Some(MQTT_CLIENT_CLASS)
  {
    if className == Some(AMQP_CLIENT_CLASS) then AmqpClass
    else if className == Some(MQTT_CLIENT_CLASS) then MqttClass
    else Invalid
  }

  datatype TransportKind = Amqp | Mqtt

  /** A transport client, as constructed: its protocol and endpoint. */
  datatype Transport = Transport(kind: TransportKind, hostname: Option<string>, port: Int32)

  /** The reflective construction through a `(String, int, Vertx)`
      constructor. Only `AmqpClient` declares one: `MqttClient`'s
      constructor also takes the server certificate, so looking it up
      fails like an unknown class does. */
  function Instantiate(choice: TransportChoice, hostname: Option<string>, port: Int32): (r: Option<Transport>)
    ensures r.Some? <==> choice == AmqpClass
    ensures r.Some? ==> r.value == Transport(Amqp, hostname, port)
  {
    match choice
    case AmqpClass => Some(Transport(Amqp, hostname, port))
    case MqttClass => None
    case Invalid => None
  }

  /** `init`: the sensor range must be configured (a `null` value cannot be
      stored in the sensor's properties), the port must be an `int`, and a
      transport that cannot be instantiated for any reason falls back to an
      AMQP client on the same host and port. */
  function Init(p: Properties, className: Option<string>): (r: Result<Transport>)
    ensures GetProperty(p, DHT22_TEMPERATURE_MIN).None? || GetProperty(p, DHT22_TEMPERATURE_MAX).None?
            ==> r == Err(NullPointer)
    ensures r.Ok? ==> r.value.hostname == GetProperty(p, HOSTNAME)
                      && Ok(r.value.port) == ParseInt(GetProperty(p, PORT))
    ensures r.Ok? && Instantiate(ChooseTransport(className), r.value.hostname, r.value.port).None?
            ==> r.value.kind == Amqp
    ensures GetProperty(p, DHT22_TEMPERATURE_MIN).Some? && GetProperty(p, DHT22_TEMPERATURE_MAX).Some?
            ==> (r.Ok? <==> ParseInt(GetProperty(p, PORT)).Ok?)
    ensures GetProperty(p, DHT22_TEMPERATURE_MIN).Some? && GetProperty(p, DHT22_TEMPERATURE_MAX).Some?
            && ParseInt(GetProperty(p, PORT)).Err?
            ==> r == Err(NumberFormat)
    ensures r.Err? ==> r.fault == NullPointer || r.fault == NumberFormat
  {
    if GetProperty(p, DHT22_TEMPERATURE_MIN).None? || GetProperty(p, DHT22_TEMPERATURE_MAX).None? then
      Err(NullPointer)
    else
      var hostname := GetProperty(p, HOSTNAME);
      var port :- ParseInt(GetProperty(p, PORT));
      match Instantiate(ChooseTransport(className), hostname, port)
      case Some(t) => Ok(t)
      case None => Ok(Transport(Amqp, hostname, port))
  }

  /** As the classes are written, whichever class is named, a device with
      a sensor range and a numeric port initialises, and it does so with an
      AMQP client on the configured endpoint. */
  lemma InitAlwaysAmqp(p: Properties, className: Option<string>)
    requires GetProperty(p, DHT22_TEMPERATURE_MIN).Some? && GetProperty(p, DHT22_TEMPERATURE_MAX).Some?
    requires ParseInt(GetProperty(p, PORT)).Ok?
    ensures Init(p, className) == Ok(Transport(Amqp, GetProperty(p, HOSTNAME), ParseInt(GetProperty(p, PORT)).value))
  {
  }

  /** The control handler installed in `connected`: a command for another
      device is dropped; for this device "open" and "close" drive the valve
      and any other operation does nothing. A command without "device-id"
      throws, since the id is compared by calling `equals` on it. The
      result is the valve call made, if any. */
  function HandleControl(p: Properties, codec: Codec, message: string): (r: Result<Option<Threshold.Operation>>)
    ensures codec.decode(message).None? ==> r == Err(DecodeJson)
    ensures codec.decode(message).Some? ==> r == HandleCommand(p, codec.decode(message).value)
  {
    var o :- Parse(codec, message);
    HandleCommand(p, o)
  }

  /** The JSON part of the control handler. */
  function HandleCommand(p: Properties, o: Object): (r: Result<Option<Threshold.Operation>>)
    ensures GetString(o, DEVICE_ID_KEY).Err? ==> r == Err(ClassCast)
    ensures GetString(o, DEVICE_ID_KEY) == Ok(GetProperty(p, DEVICE_ID)) && GetProperty(p, DEVICE_ID).Some?
            && GetString(o, OPERATION_KEY).Err?
            ==> r == Err(ClassCast)
    ensures GetString(o, DEVICE_ID_KEY) == Ok(None) ==> r == Err(NullPointer)
    ensures GetString(o, DEVICE_ID_KEY).Ok? && GetString(o, DEVICE_ID_KEY).value.Some?
            && GetString(o, DEVICE_ID_KEY).value != GetProperty(p, DEVICE_ID)
            ==> r == Ok(None)
    ensures r.Ok? && r.value.Some? ==> GetString(o, DEVICE_ID_KEY) == Ok(GetProperty(p, DEVICE_ID))
    ensures r.Ok? && r.value.Some? ==> GetString(o, OPERATION_KEY) == Ok(Some(Threshold.Name(r.value.value)))
    ensures GetString(o, DEVICE_ID_KEY) == Ok(GetProperty(p, DEVICE_ID)) && GetProperty(p, DEVICE_ID).Some?
            && GetString(o, OPERATION_KEY).Ok?
            ==> r == Ok(Threshold.FromName(GetString(o, OPERATION_KEY).value))
  {
    var deviceId :- GetString(o, DEVICE_ID_KEY);
    match deviceId
    case None => Err(NullPointer)
    case Some(id) =>
      if Some(id) != GetProperty(p, DEVICE_ID) then Ok(None)
      else
        var operation :- GetString(o, OPERATION_KEY);
        Ok(Threshold.FromName(operation))
  }

  /** What `connected` sets up: the address subscribed to, the temperature
      address and the publishing period. The subscription is made before
      the period is read, so a bad period leaves the subscription in place. */
  datatype Schedule = Schedule(subscription: Option<string>, publishing: Result<(Int32, Option<string>)>)

  /** Vert.x's `setPeriodic` refuses a delay below one millisecond with an
      IllegalArgumentException. */
  const MIN_TIMER_DELAY := 1

  /** The success path of `connected`: publishing is set up exactly when
      the update interval is an `int` the timer accepts. */
  function Connected(p: Properties): (s: Schedule)
    ensures s.subscription == GetProperty(p, CONTROL_ADDRESS)
    ensures s.publishing.Ok? <==> ParseInt(GetProperty(p, UPDATE_INTERVAL)).Ok?
                                  && ParseInt(GetProperty(p, UPDATE_INTERVAL)).value >= MIN_TIMER_DELAY
    ensures ParseInt(GetProperty(p, UPDATE_INTERVAL)).Err? ==> s.publishing == Err(NumberFormat)
    ensures ParseInt(GetProperty(p, UPDATE_INTERVAL)).Ok? && ParseInt(GetProperty(p, UPDATE_INTERVAL)).value < MIN_TIMER_DELAY
            ==> s.publishing == Err(IllegalArgument)
    ensures s.publishing.Ok? ==> s.publishing.value == (ParseInt(GetProperty(p, UPDATE_INTERVAL)).value, GetProperty(p, TEMPERATURE_ADDRESS))
  {
    var publishing :=
      match ParseInt(GetProperty(p, UPDATE_INTERVAL))
      case Ok(interval) =>
        if interval < MIN_TIMER_DELAY then Err(IllegalArgument)
        else Ok((interval, GetProperty(p, TEMPERATURE_ADDRESS)))
      case Err(f) => Err(f);
    Schedule(GetProperty(p, CONTROL_ADDRESS), publishing)
  }

  /** A device started by `main` subscribes to `prefix/id` exactly. */
  lemma SubscribesToOwnControlAddress(p: Properties)
    ensures Connected(Configure(p)).subscription
            == Some(Show(GetProperty(p, CONTROL_PREFIX)) + "/" + Show(GetProperty(p, DEVICE_ID)))
  {
  }

  /** One tick of the periodic timer: the JSON payload and the address it
      is sent to. */
  datatype Telemetry = Telemetry(address: Option<string>, payload: Object)

  /** The payload holds exactly the configured id and the sensor reading. */
  function Tick(p: Properties, temperature: Int32): (t: Telemetry)
    ensures t.address == GetProperty(p, TEMPERATURE_ADDRESS)
    ensures t.payload.Keys == {DEVICE_ID_KEY, TEMPERATURE_KEY}
    ensures GetString(t.payload, DEVICE_ID_KEY) == Ok(GetProperty(p, DEVICE_ID))
    ensures GetInteger(t.payload, TEMPERATURE_KEY) == Ok(Some(temperature))
    ensures t.payload[TEMPERATURE_KEY] == Int(temperature)
  {
    var json := PutInt(PutString(map[], DEVICE_ID_KEY, GetProperty(p, DEVICE_ID)), TEMPERATURE_KEY, temperature);
    Telemetry(GetProperty(p, TEMPERATURE_ADDRESS), json)
  }
}

=== FILE: interop.dfy ===
/** How the components' documents fit together, as the code is written:
    which producer's messages each consumer reads correctly, and which it
    does not. */
module Interop {
  import opened Java
  import opened Json
  import opened Proton
  import Threshold
  import DeviceTemperatures
  import Analyzer
  import Thermostat
  import Controller
  import Heating
  import AmqpTransport

  /** The thermostat reads the analyzer's maxima exactly: it takes its
      decision on the reduced device id and maximum. */
  lemma AnalyzerFeedsThermostat(c: Thermostat.Config, codec: Codec, key: Option<string>, max: Int32)
    requires Faithful(codec)
    ensures Thermostat.HandleNotification(c, codec, Analyzer.MaxMessage(codec, key, max))
            == Ok(Thermostat.AdjustTemperature(c, codec, key, max))
  {
  }

  /** The controller's thermostat looks for "deviceId", which a
      `DeviceTemperature` document does not hold: it decides on the right
      temperature but addresses its command to `prefix/null`. */
  lemma ControllerMissesAnalyzerId(c: Controller.Config, codec: Codec, key: Option<string>, max: Int32)
    requires Faithful(codec)
    requires Threshold.OutOfBand(max, c.minTemp, c.maxTemp)
    ensures var r := Controller.HandleNotification(c, codec, Analyzer.MaxMessage(codec, key, max));
      && r.Ok? && r.value.Some?
      && r.value.value.target == c.controlPrefix + "/null"
  {
    var o := DeviceTemperatures.ToJson(DeviceTemperatures.DeviceTemperature(key, max));
    assert Controller.DEVICE_ID_KEY !in o;
  }

  /** A thermostat command for a device, read by that device, makes the
      valve call the thermostat decided. */
  lemma ThermostatCommandDrivesValve(c: Thermostat.Config, codec: Codec, p: Heating.Properties, id: string, t: Int32)
    requires Faithful(codec)
    requires Heating.GetProperty(p, Heating.DEVICE_ID) == Some(id)
    requires Threshold.OutOfBand(t, c.minTemp, c.maxTemp)
    ensures var cmd := Thermostat.AdjustTemperature(c, codec, Some(id), t).value;
      Heating.HandleControl(p, codec, codec.encode(cmd.payload)) == Ok(Threshold.Decide(t, c.minTemp, c.maxTemp))
  {
    var cmd := Thermostat.AdjustTemperature(c, codec, Some(id), t).value;
    assert Threshold.FromName(GetString(cmd.payload, Heating.OPERATION_KEY).value)
           == Threshold.Decide(t, c.minTemp, c.maxTemp);
  }

  /** The same command read by another device leaves its valve alone. */
  lemma ThermostatCommandIgnoredElsewhere(c: Thermostat.Config, codec: Codec, p: Heating.Properties, id: string, t: Int32)
    requires Faithful(codec)
    requires Heating.GetProperty(p, Heating.DEVICE_ID) != Some(id)
    requires Threshold.OutOfBand(t, c.minTemp, c.maxTemp)
    ensures var cmd := Thermostat.AdjustTemperature(c, codec, Some(id), t).value;
      Heating.HandleControl(p, codec, codec.encode(cmd.payload)) == Ok(None)
  {
  }

  /** A controller command carries no "device-id", so the device throws on
      it instead of driving the valve. */
  lemma ControllerCommandCrashesDevice(c: Controller.Config, codec: Codec, p: Heating.Properties, id: Option<string>, t: Int32)
    requires Faithful(codec)
    requires Threshold.OutOfBand(t, c.minTemp, c.maxTemp)
    ensures var cmd := Controller.AdjustTemperature(c, codec, id, t).value;
      Heating.HandleControl(p, codec, codec.encode(cmd.payload)) == Err(NullPointer)
  {
    var cmd := Controller.AdjustTemperature(c, codec, id, t).value;
    assert Heating.DEVICE_ID_KEY !in cmd.payload;
  }

  /** Thermostat commands travel in Data sections, which the AMQP client's
      receive path casts to AmqpValue: a device on that transport never
      sees them. */
  lemma ThermostatCommandRejectedByAmqpClient(client: AmqpTransport.Client, receiver: AmqpTransport.Link,
                                              c: Thermostat.Config, codec: Codec, id: Option<string>, t: Int32)
    requires Threshold.OutOfBand(t, c.minTemp, c.maxTemp)
    ensures var cmd := Thermostat.AdjustTemperature(c, codec, id, t).value;
      AmqpTransport.ReceiverHandler(client, receiver, cmd.message) == Err(ClassCast)
  {
  }

  /** `run` hands `connected` to its client's `connect`. The client of an
      initialised device is always an AMQP client, and that client's
      `connect` never calls its handler, whatever the broker answers. So
      `connected` never runs: the device never subscribes to its control
      address and never publishes its temperature. */
  lemma DeviceNeverRunsConnected(p: Heating.Properties, className: Option<string>,
                                 connected: AmqpTransport.HandlerId, handshake: Option<nat>)
    requires Heating.Init(p, className).Ok?
    ensures var t := Heating.Init(p, className).value;
      && t.kind == Heating.Amqp
      && forall e | e in AmqpTransport.Connect(AmqpTransport.Create(t.hostname, t.port), connected, handshake).effects ::
           !e.Notify?
  {
    Heating.InitAlwaysAmqp(p, className);
  }

  /** A device's telemetry, sent through a connected AMQP client on an open
      link to the device's temperature address, reaches the analyzer as the
      device's id and reading. */
  lemma TelemetryReachesAnalyzer(client: AmqpTransport.Client, p: Heating.Properties, codec: Codec,
                                 reading: Int32, handler: AmqpTransport.HandlerId)
    requires Faithful(codec)
    requires AmqpTransport.Valid(client) && client.senders.Some?
    requires Heating.Tick(p, reading).address.Some?
    ensures var tick := Heating.Tick(p, reading);
      var r := AmqpTransport.Send(client, tick.address.value, codec.encode(tick.payload), handler, true);
      && r.Ok?
      && (exists e | e in r.value.effects :: e.Transmit?)
      && forall e | e in r.value.effects && e.Transmit? ::
           && e.message.address == tick.address
           && Analyzer.DecodeBody(codec, e.message.body)
              == Ok(Some(DeviceTemperatures.DeviceTemperature(Heating.GetProperty(p, Heating.DEVICE_ID), reading)))
  {
    var payload := Heating.Tick(p, reading).payload;
    assert DeviceTemperatures.FromJson(payload)
           == Ok(DeviceTemperatures.DeviceTemperature(Heating.GetProperty(p, Heating.DEVICE_ID), reading));
  }
}

=== FILE: java.dfy ===
/** The few pieces of the Java runtime the core leans on: `null`, the
    exceptions it can raise on its own inputs, 32-bit `int`,
    `Integer.parseInt` and `Integer.toString`. */
module Java {

  /** A Java reference that may be `null`: `None` is `null`. */
  datatype Option<+T> = None | Some(value: T)

  /** The exceptions the core raises on its own inputs. */
  datatype Fault =
    | NullPointer   // a method called on `null`, or a `null` Integer unboxed
    | ClassCast     // a JSON value or message body of another type than expected
    | NumberFormat  // `Integer.parseInt` / `Integer.valueOf` on a non-numeral
    | DecodeJson    // text that is not a JSON object
    | IllegalArgument  // a timer scheduled with a delay below one millisecond

  /** A computation that returns a value or throws. */
  datatype Result<+T> = Ok(value: T) | Err(fault: Fault) {
    predicate IsFailure() {
      Err?
    }

    function PropagateFailure<U>(): Result<U>
      requires Err?
    {
      Err(fault)
    }

    function Extract(): T
      requires Ok?
    {
      value
    }
  }

  const INT_MIN: int := -0x8000_0000
  const INT_MAX: int := 0x7FFF_FFFF
  const TWO_POW_32: int := 0x1_0000_0000

  predicate IsInt32(n: int) {
    INT_MIN <= n <= INT_MAX
  }

  /** Java's `int`. */
  type Int32 = n: int | IsInt32(n)

  /** `Number.intValue()`: keeps the low 32 bits, read as two's complement. */
  function IntValue(n: int): (r: Int32)
    ensures (r - n) % TWO_POW_32 == 0
    ensures IsInt32(n) ==> r == n
  {
    var m := n % TWO_POW_32;
    if m <= INT_MAX then m else m - TWO_POW_32
  }

  /** How Java renders a possibly-null string in `+` and `String.format("%s")`. */
  function Show(s: Option<string>): string {
    match s
    case Some(v) => v
    case None => "null"
  }

  predicate IsDigit(c: char) {
    '0' <= c <= '9'
  }

  predicate AllDigits(s: string) {
    forall i | 0 <= i < |s| :: IsDigit(s[i])
  }

  function DigitValue(c: char): nat
    requires IsDigit(c)
  {
    (c as int) - ('0' as int)
  }

  function DigitChar(d: nat): (c: char)
    requires d < 10
    ensures IsDigit(c) && DigitValue(c) == d
  {
    (('0' as int) + d) as char
  }

  /** The value of a string of decimal digits, most significant first. */
  function DigitsValue(s: string): nat
    requires AllDigits(s)
  {
    if |s| == 0 then 0 else 10 * DigitsValue(s[..|s| - 1]) + DigitValue(s[|s| - 1])
  }

  /** What `Integer.parseInt` accepts: an optional sign followed by at least
      one decimal digit. */
  predicate IsNumeral(s: string) {
    if |s| > 0 && (s[0] == '-' || s[0] == '+') then |s| > 1 && AllDigits(s[1..])
    else |s| > 0 && AllDigits(s)
  }

  /** The value a numeral denotes. */
  function NumeralValue(s: string): int
    requires IsNumeral(s)
  {
    if s[0] == '-' then -(DigitsValue(s[1..]) as int)
    else if s[0] == '+' then DigitsValue(s[1..])
    else DigitsValue(s)
  }

  /** Java's `/` on `int`, which truncates toward zero. */
  function JavaDiv(a: int, b: int): int
    requires b != 0
  {
    var q := (if a < 0 then -a else a) / (if b < 0 then -b else b);
    if (a < 0) == (b < 0) then q else -q
  }

  /** `Character.digit(c, 10)` on ASCII: the digit's value, or -1. */
  function Digit(c: char): int {
    if IsDigit(c) then DigitValue(c) else -1
  }

  /** The digit loop of `Integer.parseInt`. It accumulates the NEGATED
      value in `result`, so that `Integer.MIN_VALUE` fits; before each
      step it rejects a result below `multmin` (the limit divided by ten)
      and, after multiplying, one that the next digit would push below
      `limit`. */
  function ParseDigits(s: string, i: nat, result: int, limit: int, multmin: int): Result<int>
    requires i <= |s|
    decreases |s| - i
  {
    if i == |s| then Ok(result)
    else
      var digit := Digit(s[i]);
      if digit < 0 || result < multmin then Err(NumberFormat)
      else if result * 10 < limit + digit then Err(NumberFormat)
      else ParseDigits(s, i + 1, result * 10 - digit, limit, multmin)
  }

  /** `Integer.parseInt(s)` (and `Integer.valueOf(s)`): a numeral whose
      value fits in an `int` reads as that value; anything else, `null`
      included, throws NumberFormatException. The first character is a
      sign exactly when it sorts below '0'. */
  function ParseInt(s: Option<string>): (r: Result<Int32>)
    ensures r.Ok? <==> s.Some? && IsNumeral(s.value) && IsInt32(NumeralValue(s.value))
    ensures r.Ok? ==> r.value == NumeralValue(s.value)
    ensures r.Err? ==> r.fault == NumberFormat
  {
    match s
    case None => Err(NumberFormat)
    case Some(t) =>
      if |t| == 0 then Err(NumberFormat)
      else if t[0] < '0' && t[0] != '-' && t[0] != '+' then Err(NumberFormat)
      else if t[0] < '0' && |t| == 1 then Err(NumberFormat)
      else
        var negative := t[0] == '-';
        var limit := if negative then INT_MIN else -INT_MAX;
        var start := if t[0] < '0' then 1 else 0;
        ParseDigitsValue(t, start, start, limit);
        match ParseDigits(t, start, 0, limit, JavaDiv(limit, 10))
        case Ok(result) => Ok(if negative then result else -result)
        case Err(f) => Err(f)
  }

  /** A prefix of a digit string is worth no more than the whole. */
  lemma {:induction false} DigitsValuePrefix(s: string, k: nat)
    requires k <= |s| && AllDigits(s)
    ensures AllDigits(s[..k]) && DigitsValue(s[..k]) <= DigitsValue(s)
    decreases |s|
  {
    if k == |s| {
      assert s[..k] == s;
    } else {
      DigitsValuePrefix(s[..|s| - 1], k);
      assert s[..|s| - 1][..k] == s[..k];
    }
  }

  /** The digit loop, started on the negated value of the digits read so
      far, succeeds exactly when the rest are digits and the whole value
      stays within `-limit`, and then yields the negated whole value. */
  lemma {:induction false} ParseDigitsValue(s: string, start: nat, i: nat, limit: int)
    requires start <= i <= |s|
    requires limit == INT_MIN || limit == -INT_MAX
    requires AllDigits(s[start..i]) && DigitsValue(s[start..i]) <= -limit
    ensures var r := ParseDigits(s, i, -(DigitsValue(s[start..i]) as int), limit, JavaDiv(limit, 10));
      && (r.Ok? <==> AllDigits(s[start..]) && DigitsValue(s[start..]) <= -limit)
      && (r.Ok? ==> r.value == -(DigitsValue(s[start..]) as int))
      && (r.Err? ==> r.fault == NumberFormat)
    decreases |s| - i
  {
    var multmin := JavaDiv(limit, 10);
    assert multmin == -214748364;
    if i == |s| {
      assert s[start..i] == s[start..];
    } else {
      var v := DigitsValue(s[start..i]);
      var digit := Digit(s[i]);
      assert s[start..][i - start] == s[i];
      if digit >= 0 {
        var next := s[start..i + 1];
        assert next[..|next| - 1] == s[start..i];
        assert AllDigits(next);
        assert DigitsValue(next) == 10 * v + digit;
        if -v < multmin || -v * 10 < limit + digit {
          if AllDigits(s[start..]) {
            DigitsValuePrefix(s[start..], i + 1 - start);
            assert s[start..][..i + 1 - start] == next;
          }
        } else {
          ParseDigitsValue(s, start, i + 1, limit);
        }
      }
    }
  }

  /** Decimal digits of a natural number, without leading zeros. */
  function NatToString(n: nat): (s: string)
    ensures |s| > 0
  {
    if n < 10 then [DigitChar(n)] else NatToString(n / 10) + [DigitChar(n % 10)]
  }

  /** `Integer.toString(n)`, which is also what `"" + n` prints. */
  function IntToString(n: int): string {
    if n < 0 then "-" + NatToString(-n) else NatToString(n)
  }

  lemma {:induction false} NatToStringDigits(n: nat)
    ensures AllDigits(NatToString(n))
    ensures DigitsValue(NatToString(n)) == n
  {
    if n >= 10 {
      NatToStringDigits(n / 10);
      var s := NatToString(n);
      assert s[..|s| - 1] == NatToString(n / 10);
      assert s[|s| - 1] == DigitChar(n % 10);
    }
  }

  /** Reading back what `Integer.toString` printed gives the same `int`. */
  lemma IntToStringRoundTrip(n: Int32)
    ensures ParseInt(Some(IntToString(n))) == Ok(n)
  {
    var m: int := n;
    NatToStringDigits(if m < 0 then -m else m);
    if n < 0 {
      assert IntToString(n)[1..] == NatToString(-m);
    } else {
      assert IsDigit(NatToString(n)[0]);
    }
  }

  /** A decimal rendering never contains a character other than digits and a leading minus. */
  lemma IntToStringAlphabet(n: int)
    ensures forall i | 0 <= i < |IntToString(n)| :: IsDigit(IntToString(n)[i]) || IntToString(n)[i] == '-'
  {
    NatToStringDigits(if n < 0 then -n else n);
  }
}

=== FILE: json.dfy ===
/** Vert.x `JsonObject` as the core uses it: a flat finite map from key to
    value, read with `getString` / `getInteger` and written with `put`.
    Turning text into an object and back is a `Codec` supplied by the
    caller. */
module Json {
  import opened Java

  /** A JSON value as stored in a `JsonObject`'s backing map. `Other`
      stands for every value that is neither a string, an integral number
      nor `null` (booleans, arrays, nested objects). */
  datatype Value = Str(s: string) | Int(n: int) | Null | Other

  type Object = map<string, Value>

  /** `getString(key)`: `null` when the key is absent or maps to `null`;
      a ClassCastException when the value is not a string. */
  function GetString(o: Object, key: string): (r: Result<Option<string>>)
    ensures r.Err? <==> key in o && !o[key].Str? && !o[key].Null?
    ensures r.Err? ==> r.fault == ClassCast
    ensures r.Ok? && r.value.Some? <==> key in o && o[key].Str?
    ensures r.Ok? && r.value.Some? ==> o[key] == Str(r.value.value)
  {
    if key !in o then Ok(None)
    else match o[key]
      case Str(s) => Ok(Some(s))
      case Null => Ok(None)
      case _ => Err(ClassCast)
  }

  /** `getInteger(key)`: `null` when the key is absent or maps to `null`;
      the number's `intValue()` when it is a number; a ClassCastException
      otherwise. */
  function GetInteger(o: Object, key: string): (r: Result<Option<Int32>>)
    ensures r.Err? <==> key in o && !o[key].Int? && !o[key].Null?
    ensures r.Err? ==> r.fault == ClassCast
    ensures r.Ok? && r.value.Some? <==> key in o && o[key].Int?
    ensures r.Ok? && r.value.Some? && IsInt32(o[key].n) ==> r.value.value == o[key].n
  {
    if key !in o then Ok(None)
    else match o[key]
      case Int(n) => Ok(Some(IntValue(n)))
      case Null => Ok(None)
      case _ => Err(ClassCast)
  }

  /** `getString(stringKey)` followed by `getInteger(intKey)` unboxed into
      an `int`: a missing or `null` number throws NullPointerException. */
  function GetStringAndInt(o: Object, stringKey: string, intKey: string): (r: Result<(Option<string>, Int32)>)
    ensures GetString(o, stringKey).Err? ==> r == Err(ClassCast)
    ensures GetString(o, stringKey).Ok? && GetInteger(o, intKey).Err? ==> r == Err(ClassCast)
    ensures GetString(o, stringKey).Ok? && GetInteger(o, intKey) == Ok(None) ==> r == Err(NullPointer)
    ensures r.Ok? ==> GetString(o, stringKey) == Ok(r.value.0) && GetInteger(o, intKey) == Ok(Some(r.value.1))
    ensures GetString(o, stringKey).Ok? && GetInteger(o, intKey).Ok? && GetInteger(o, intKey).value.Some?
            ==> r == Ok((GetString(o, stringKey).value, GetInteger(o, intKey).value.value))
  {
    var s :- GetString(o, stringKey);
    var n :- GetInteger(o, intKey);
    match n
    case Some(v) => Ok((s, v))
    case None => Err(NullPointer)
  }

  /** `put(key, String)`: a `null` string is stored as JSON `null`. */
  function PutString(o: Object, key: string, v: Option<string>): (r: Object)
    ensures r.Keys == o.Keys + {key}
    ensures GetString(r, key) == Ok(v)
    ensures forall k | k in o && k != key :: r[k] == o[k]
  {
    o[key := match v case Some(s) => Str(s) case None => Null]
  }

  /** `put(key, int)`. */
  function PutInt(o: Object, key: string, v: Int32): (r: Object)
    ensures r.Keys == o.Keys + {key}
    ensures r[key] == Int(v)
    ensures GetInteger(r, key) == Ok(Some(v))
    ensures forall k | k in o && k != key :: r[k] == o[k]
  {
    o[key := Int(v)]
  }

  /** JSON text conversion, which the model does not define: `decode` is
      `new JsonObject(text)` (`None` when it throws DecodeException) and
      `encode` is `toString()` / `toBuffer()`. */
  datatype Codec = Codec(decode: string -> Option<Object>, encode: Object -> string)

  /** A codec whose decoder reads back everything its encoder writes. */
  ghost predicate Faithful(c: Codec) {
    forall o: Object :: c.decode(c.encode(o)) == Some(o)
  }

  /** `new JsonObject(text)`. */
  function Parse(c: Codec, text: string): (r: Result<Object>)
    ensures r.Err? <==> c.decode(text).None?
    ensures r.Err? ==> r.fault == DecodeJson
    ensures r.Ok? ==> Some(r.value) == c.decode(text)
  {
    match c.decode(text)
    case Some(o) => Ok(o)
    case None => Err(DecodeJson)
  }
}

=== FILE: proton.dfy ===
/** AMQP 1.0 messages as the core builds and reads them through Proton. */
module Proton {
  import opened Java

  /** The body section of a message. A `Data` section carries bytes; the
      model keeps the text those bytes encode. An `AmqpValue` carries a
      value; the model keeps that value's `toString()`. */
  datatype Section =
    | AmqpValue(text: string)
    | Data(text: string)
    | AmqpSequence      // a body of a kind no part of the core expects
    | NoBody            // `getBody()` returned `null`

  /** A message: its `to` address (`None` when never set) and its body. */
  datatype Message = Message(address: Option<string>, body: Section)

  /** `ProtonHelper.message(text)`: a string carried as an AmqpValue body. */
  function TextMessage(text: string): (m: Message)
    ensures m.body.AmqpValue? && m.body.text == text
    ensures m.address.None?
  {
    Message(None, AmqpValue(text))
  }
}

=== FILE: temperature_analyzer.dfy ===
/** The pure steps of `TemperatureAnalyzer`: decoding a message body into a
    `DeviceTemperature`, projecting it to an (id, temperature) pair,
    reducing each window to the maximum per device, and building the
    message that republishes each maximum. */
module Analyzer {
  import opened Java
  import opened Json
  import opened Proton
  import opened DeviceTemperatures

  /** Where the analyzer connects and which addresses it uses. */
  datatype Settings = Settings(
    host: string,
    port: Int32,
    username: Option<string>,
    password: Option<string>,
    temperatureAddress: string,
    maxAddress: string)

  const TEMPERATURE_ADDRESS := "temperature"
  const MAX_ADDRESS := "max"

  /** `main`: the host and port default to localhost:5672 and are replaced
      by their environment variables only when those are set; the
      credentials are the variables' values, `null` when unset. */
  function LoadSettings(env: map<string, string>): (r: Result<Settings>)
    ensures r.Ok? ==> r.value.host == (if "MESSAGING_SERVICE_HOST" in env then env["MESSAGING_SERVICE_HOST"] else "localhost")
    ensures "MESSAGING_SERVICE_PORT" !in env ==> r.Ok? && r.value.port == 5672
    ensures "MESSAGING_SERVICE_PORT" in env ==>
      (r.Ok? <==> ParseInt(Some(env["MESSAGING_SERVICE_PORT"])).Ok?)
      && (r.Ok? ==> Ok(r.value.port) == ParseInt(Some(env["MESSAGING_SERVICE_PORT"])))
    ensures r.Ok? ==> r.value.username == (if "MESSAGING_USERNAME" in env then Some(env["MESSAGING_USERNAME"]) else None)
    ensures r.Ok? ==> r.value.password == (if "MESSAGING_PASSWORD" in env then Some(env["MESSAGING_PASSWORD"]) else None)
    ensures r.Ok? ==> r.value.temperatureAddress == "temperature" && r.value.maxAddress == "max"
  {
    var host := if "MESSAGING_SERVICE_HOST" in env then env["MESSAGING_SERVICE_HOST"] else "localhost";
    var port :- if "MESSAGING_SERVICE_PORT" in env then ParseInt(Some(env["MESSAGING_SERVICE_PORT"])) else Ok(5672);
    var username := if "MESSAGING_USERNAME" in env then Some(env["MESSAGING_USERNAME"]) else None;
    var password := if "MESSAGING_PASSWORD" in env then Some(env["MESSAGING_PASSWORD"]) else None;
    Ok(Settings(host, port, username, password, TEMPERATURE_ADDRESS, MAX_ADDRESS))
  }

  /** The message converter given to the AMQP stream: an AmqpValue body is
      read through its value's text, a Data body through the text its bytes
      encode, and any other body (or none) returns Java `null` (`None`). */
  function DecodeBody(codec: Codec, body: Section): (r: Result<Option<DeviceTemperature>>)
    ensures body.AmqpSequence? || body.NoBody? ==> r == Ok(None)
    ensures body.AmqpValue? || body.Data? ==>
      match FromText(codec, body.text)
      case Ok(d) => r == Ok(Some(d))
      case Err(f) => r == Err(f)
  {
    match body
    case AmqpValue(text) =>
      var d :- FromText(codec, text);
      Ok(Some(d))
    case Data(text) =>
      var d :- FromText(codec, text);
      Ok(Some(d))
    case AmqpSequence => Ok(None)
    case NoBody => Ok(None)
  }

  /** `mapToPair`: key = device id, value = temperature. */
  function ToPair(d: DeviceTemperature): (Option<string>, Int32) {
    (d.deviceId, d.temperature)
  }

  /** The reducer passed to `reduceByKeyAndWindow`. */
  function MaxReducer(a: Int32, b: Int32): (r: Int32)
    ensures r >= a && r >= b
    ensures r == a || r == b
  {
    if a > b then a else b
  }

  lemma MaxReducerCommutes(a: Int32, b: Int32)
    ensures MaxReducer(a, b) == MaxReducer(b, a)
  {
  }

  lemma MaxReducerAssociates(a: Int32, b: Int32, c: Int32)
    ensures MaxReducer(MaxReducer(a, b), c) == MaxReducer(a, MaxReducer(b, c))
  {
  }

  /** `m` maps each key of `pairs` to the largest value paired with it, and
      holds nothing else. */
  ghost predicate IsPerKeyMax<K>(pairs: seq<(K, Int32)>, m: map<K, Int32>) {
    && (forall p | p in pairs :: p.0 in m && p.1 <= m[p.0])
    && (forall k | k in m :: (k, m[k]) in pairs)
  }

  /** Reducing a stream of pairs by key with `MaxReducer`, folding the
      pairs in order. */
  function ReduceByKey<K>(pairs: seq<(K, Int32)>): (m: map<K, Int32>)
    ensures IsPerKeyMax(pairs, m)
    decreases |pairs|
  {
    if |pairs| == 0 then map[]
    else
      var init := pairs[..|pairs| - 1];
      var last := pairs[|pairs| - 1];
      var m := ReduceByKey(init);
      var v := if last.0 in m then MaxReducer(m[last.0], last.1) else last.1;
      assert pairs == init + [last];
      m[last.0 := v]
  }

  /** A per-key maximum depends only on which pairs occur. */
  lemma PerKeyMaxUnique<K>(p: seq<(K, Int32)>, q: seq<(K, Int32)>, m1: map<K, Int32>, m2: map<K, Int32>)
    requires IsPerKeyMax(p, m1) && IsPerKeyMax(q, m2)
    requires forall x :: x in p <==> x in q
    ensures m1 == m2
  {
    forall k | k in m1
      ensures k in m2 && m1[k] == m2[k]
    {
      assert (k, m1[k]) in q;
    }
    forall k | k in m2
      ensures k in m1
    {
      assert (k, m2[k]) in p;
    }
  }

  /** Because the reducer commutes and associates, the order in which the
      pairs arrive does not change the result. */
  lemma ReduceByKeyOrderFree<K>(p: seq<(K, Int32)>, q: seq<(K, Int32)>)
    requires forall x :: x in p <==> x in q
    ensures ReduceByKey(p) == ReduceByKey(q)
  {
    PerKeyMaxUnique(p, q, ReduceByKey(p), ReduceByKey(q));
  }

  /** The pairs of a window of records. */
  function Project(records: seq<DeviceTemperature>): (pairs: seq<(Option<string>, Int32)>)
    ensures |pairs| == |records|
    ensures forall i | 0 <= i < |records| :: pairs[i] == ToPair(records[i])
  {
    seq(|records|, i requires 0 <= i < |records| => ToPair(records[i]))
  }

  /** The maxima of one window. */
  function WindowMax(records: seq<DeviceTemperature>): map<Option<string>, Int32> {
    ReduceByKey(Project(records))
  }

  /** Each device of the window gets its highest temperature, and only
      devices of the window appear. */
  lemma WindowMaxIsPerDeviceMax(records: seq<DeviceTemperature>)
    ensures forall d | d in records :: d.deviceId in WindowMax(records) && d.temperature <= WindowMax(records)[d.deviceId]
    ensures forall k | k in WindowMax(records) :: DeviceTemperature(k, WindowMax(records)[k]) in records
  {
    var pairs := Project(records);
    var m := WindowMax(records);
    forall d | d in records
      ensures d.deviceId in m && d.temperature <= m[d.deviceId]
    {
      var i :| 0 <= i < |records| && records[i] == d;
      assert pairs[i] in pairs;
    }
    forall k | k in m
      ensures DeviceTemperature(k, m[k]) in records
    {
      var i :| 0 <= i < |pairs| && pairs[i] == (k, m[k]);
      assert records[i] == DeviceTemperature(k, m[k]);
    }
  }

  /** The message sent for one reduced pair: a `DeviceTemperature` for the
      key and its maximum, on the max address, with its JSON text as a
      Data body. */
  function MaxMessage(codec: Codec, key: Option<string>, max: Int32): (m: Message)
    ensures m.address == Some(MAX_ADDRESS)
    ensures m.body == Data(codec.encode(ToJson(DeviceTemperature(key, max))))
  {
    Message(Some(MAX_ADDRESS), Data(codec.encode(ToJson(DeviceTemperature(key, max)))))
  }

  /** What the analyzer publishes reads back as the pair it reduced. */
  lemma MaxMessageReadsBack(codec: Codec, key: Option<string>, max: Int32)
    requires Faithful(codec)
    ensures DecodeBody(codec, MaxMessage(codec, key, max).body) == Ok(Some(DeviceTemperature(key, max)))
  {
    TextRoundTrip(codec, DeviceTemperature(key, max));
  }
}

=== FILE: thermostat.dfy ===
/** The thermostat of the `iot/thermostat` module: it listens on the
    analyzer's "max" address, and for every out-of-band maximum sends an
    open/close command to the device's control address on a fresh link. */
module Thermostat {
  import opened Java
  import opened Json
  import opened Proton
  import Threshold

  /** Keys of the JSON documents this thermostat reads and writes. */
  const DEVICE_ID_KEY := "device-id"
  const TEMPERATURE_KEY := "temperature"
  const OPERATION_KEY := "operation"
  const MAX_KEY := "max"

  /** Keys of `config.properties`. */
  const MAX_ADDRESS_PROPERTY := "address.max"
  const CONTROL_PREFIX_PROPERTY := "address.control.prefix"
  const MIN_TEMP_PROPERTY := "control.temperature.min"
  const MAX_TEMP_PROPERTY := "control.temperature.max"

  /** What `main` reads from `config.properties`. */
  datatype Settings = Settings(maxAddress: string, controlPrefix: string, minTemp: Int32, maxTemp: Int32)

  /** The constructor arguments of a thermostat. The connection parameters
      come from the application credentials. */
  datatype Config = Config(
    messagingHost: Option<string>,
    messagingPort: Int32,
    username: Option<string>,
    password: Option<string>,
    serverCert: Option<string>,
    notificationAddress: string,
    controlPrefix: string,
    minTemp: Int32,
    maxTemp: Int32)

  /** `Properties.getProperty(key, default)`. */
  function GetProperty(props: map<string, string>, key: string, default: string): string {
    if key in props then props[key] else default
  }

  /** `main`'s reading of `config.properties`: each missing property takes
      its default, and a temperature that is not an `int` aborts start-up. */
  function LoadSettings(props: map<string, string>): (r: Result<Settings>)
    ensures r.Ok? ==> r.value.maxAddress == GetProperty(props, MAX_ADDRESS_PROPERTY, "max")
    ensures r.Ok? ==> r.value.controlPrefix == GetProperty(props, CONTROL_PREFIX_PROPERTY, "control")
    ensures MIN_TEMP_PROPERTY !in props && MAX_TEMP_PROPERTY !in props
            ==> r.Ok? && r.value.minTemp == 15 && r.value.maxTemp == 25
    ensures r.Err? <==> ParseInt(Some(GetProperty(props, MIN_TEMP_PROPERTY, "15"))).Err?
                        || ParseInt(Some(GetProperty(props, MAX_TEMP_PROPERTY, "25"))).Err?
    ensures r.Ok? ==> Ok(r.value.minTemp) == ParseInt(Some(GetProperty(props, MIN_TEMP_PROPERTY, "15")))
                      && Ok(r.value.maxTemp) == ParseInt(Some(GetProperty(props, MAX_TEMP_PROPERTY, "25")))
  {
    assert DigitsValue("15") == 15 by { assert "15"[..1] == "1"; }
    assert DigitsValue("25") == 25 by { assert "25"[..1] == "2"; }
    var maxAddress := GetProperty(props, MAX_ADDRESS_PROPERTY, "max");
    var controlPrefix := GetProperty(props, CONTROL_PREFIX_PROPERTY, "control");
    var minTemp :- ParseInt(Some(GetProperty(props, MIN_TEMP_PROPERTY, "15")));
    var maxTemp :- ParseInt(Some(GetProperty(props, MAX_TEMP_PROPERTY, "25")));
    Ok(Settings(maxAddress, controlPrefix, minTemp, maxTemp))
  }

  /** The defaults when `config.properties` sets nothing. */
  lemma DefaultSettings()
    ensures LoadSettings(map[]) == Ok(Settings("max", "control", 15, 25))
  {
  }

  /** The parts of `ProtonClientOptions` that `start` may change. `None`
      means the option keeps its library default. */
  datatype ClientOptions = ClientOptions(ssl: bool, pemTrustValue: Option<string>, hostnameVerificationAlgorithm: Option<string>)

  const DEFAULT_OPTIONS := ClientOptions(false, None, None)

  /** TLS is switched on, trusting the server certificate and with host
      name verification disabled, exactly when a certificate is configured. */
  function Options(c: Config): (o: ClientOptions)
    ensures o.ssl <==> c.serverCert.Some?
    ensures o.pemTrustValue == c.serverCert
    ensures o.ssl ==> o.hostnameVerificationAlgorithm == Some("")
    ensures !o.ssl ==> o == DEFAULT_OPTIONS
  {
    match c.serverCert
    case Some(cert) => ClientOptions(true, Some(cert), Some(""))
    case None => DEFAULT_OPTIONS
  }

  /** A control command: the link target it is sent on, its JSON payload
      and the AMQP message that carries it. */
  datatype Command = Command(target: string, payload: Object, message: Message)

  /** `sendCommand`: the target is `controlPrefix/deviceId` (a `null` id
      prints as "null"), the message's address is that target, and the
      payload holds exactly the device id, the operation and the
      temperature that triggered it, under "max". */
  function SendCommand(c: Config, codec: Codec, deviceId: Option<string>, command: string, temperature: Int32): (cmd: Command)
    ensures cmd.target == c.controlPrefix + "/" + Show(deviceId)
    ensures cmd.payload.Keys == {DEVICE_ID_KEY, OPERATION_KEY, MAX_KEY}
    ensures GetString(cmd.payload, DEVICE_ID_KEY) == Ok(deviceId)
    ensures GetString(cmd.payload, OPERATION_KEY) == Ok(Some(command))
    ensures GetInteger(cmd.payload, MAX_KEY) == Ok(Some(temperature))
    ensures cmd.payload[MAX_KEY] == Int(temperature)
    ensures cmd.message.address == Some(cmd.target)
    ensures cmd.message.body == Data(codec.encode(cmd.payload))
  {
    var address := c.controlPrefix + "/" + Show(deviceId);
    var json := PutInt(PutString(PutString(map[], DEVICE_ID_KEY, deviceId), OPERATION_KEY, Some(command)), MAX_KEY, temperature);
    Command(address, json, Message(Some(address), Data(codec.encode(json))))
  }

  /** `adjustTemperature`: a command is sent exactly when the sample is out
      of band; "open" when it is below the minimum, "close" otherwise. */
  function AdjustTemperature(c: Config, codec: Codec, deviceId: Option<string>, temperature: Int32): (r: Option<Command>)
    ensures r.Some? <==> Threshold.OutOfBand(temperature, c.minTemp, c.maxTemp)
    ensures r.Some? && temperature < c.minTemp ==> r.value == SendCommand(c, codec, deviceId, "open", temperature)
    ensures r.Some? && temperature >= c.minTemp ==> r.value == SendCommand(c, codec, deviceId, "close", temperature)
  {
    match Threshold.Decide(temperature, c.minTemp, c.maxTemp)
    case Some(op) => Some(SendCommand(c, codec, deviceId, Threshold.Name(op), temperature))
    case None => None
  }

  /** The JSON part of `handleNotification`: "device-id" read as a string,
      "temperature" as an `int`, then the decision. */
  function HandlePayload(c: Config, codec: Codec, o: Object): (r: Result<Option<Command>>)
    ensures r.Err? <==> GetStringAndInt(o, DEVICE_ID_KEY, TEMPERATURE_KEY).Err?
    ensures r.Ok? ==> var (id, t) := GetStringAndInt(o, DEVICE_ID_KEY, TEMPERATURE_KEY).value;
                      r.value == AdjustTemperature(c, codec, id, t)
  {
    var (deviceId, temperature) :- GetStringAndInt(o, DEVICE_ID_KEY, TEMPERATURE_KEY);
    Ok(AdjustTemperature(c, codec, deviceId, temperature))
  }

  /** `handleNotification`: the body must be a Data section holding a JSON
      object; any other body throws before anything is sent. */
  function HandleNotification(c: Config, codec: Codec, m: Message): (r: Result<Option<Command>>)
    ensures m.body.AmqpValue? || m.body.AmqpSequence? ==> r == Err(ClassCast)
    ensures m.body.NoBody? ==> r == Err(NullPointer)
    ensures m.body.Data? && codec.decode(m.body.text).None? ==> r == Err(DecodeJson)
    ensures m.body.Data? && codec.decode(m.body.text).Some?
            ==> r == HandlePayload(c, codec, codec.decode(m.body.text).value)
  {
    match m.body
    case Data(text) =>
      var o :- Parse(codec, text);
      HandlePayload(c, codec, o)
    case AmqpValue(_) => Err(ClassCast)
    case AmqpSequence => Err(ClassCast)
    case NoBody => Err(NullPointer)
  }
}

=== FILE: threshold.dfy ===
/** The open/close decision both thermostats take on each temperature
    sample. The decision keeps no memory between samples. */
module Threshold {
  import opened Java

  /** A valve operation. */
  datatype Operation = Open | Close

  /** The operation's name on the wire. */
  function Name(op: Operation): (s: string)
    ensures s == "open" || s == "close"
  {
    match op
    case Open => "open"
    case Close => "close"
  }

  /** Reads an operation name back; any other string names no operation. */
  function FromName(s: Option<string>): (r: Option<Operation>)
    ensures r.Some? ==> s == Some(Name(r.value))
    ensures s.Some? && (s.value == "open" || s.value == "close") ==> r.Some?
  {
    if s == Some("open") then Some(Open)
    else if s == Some("close") then Some(Close)
    else None
  }

  lemma NameRoundTrip(op: Operation)
    ensures FromName(Some(Name(op))) == Some(op)
  {
  }

  /** Below the minimum opens the valve; otherwise above the maximum closes
      it; otherwise nothing is sent. The `open` test comes first, so it
      wins even when `minTemp > maxTemp`. */
  function Decide(temperature: int, minTemp: int, maxTemp: int): (r: Option<Operation>)
    ensures r == Some(Open) <==> temperature < minTemp
    ensures r == Some(Close) <==> minTemp <= temperature && maxTemp < temperature
    ensures r == None <==> minTemp <= temperature <= maxTemp
  {
    if temperature < minTemp then Some(Open)
    else if temperature > maxTemp then Some(Close)
    else None
  }

  /** A sample is out of band when it lies outside `[minTemp, maxTemp]`. */
  predicate OutOfBand(temperature: int, minTemp: int, maxTemp: int) {
    temperature < minTemp || maxTemp < temperature
  }

  /** The commands a thermostat issues over a run of samples, in order. */
  function Run(samples: seq<int>, minTemp: int, maxTemp: int): (ops: seq<Operation>)
    decreases |samples|
  {
    if |samples| == 0 then []
    else
      var first := match Decide(samples[0], minTemp, maxTemp)
        case Some(op) => [op]
        case None => [];
      first + Run(samples[1..], minTemp, maxTemp)
  }

  /** How many samples of a run are out of band. */
  function CountOutOfBand(samples: seq<int>, minTemp: int, maxTemp: int): nat
    decreases |samples|
  {
    if |samples| == 0 then 0
    else (if OutOfBand(samples[0], minTemp, maxTemp) then 1 else 0)
         + CountOutOfBand(samples[1..], minTemp, maxTemp)
  }

  /** No state carries over between samples: the commands of a
      concatenated run are those of its parts, concatenated. */
  lemma {:induction false} RunIsStateless(a: seq<int>, b: seq<int>, minTemp: int, maxTemp: int)
    ensures Run(a + b, minTemp, maxTemp) == Run(a, minTemp, maxTemp) + Run(b, minTemp, maxTemp)
    decreases |a|
  {
    if |a| > 0 {
      assert (a + b)[0] == a[0];
      assert (a + b)[1..] == a[1..] + b;
      RunIsStateless(a[1..], b, minTemp, maxTemp);
    } else {
      assert a + b == b;
    }
  }

  /** Every out-of-band sample produces a command; there is no debounce. */
  lemma {:induction false} RunCountsEverySample(samples: seq<int>, minTemp: int, maxTemp: int)
    ensures |Run(samples, minTemp, maxTemp)| == CountOutOfBand(samples, minTemp, maxTemp)
    decreases |samples|
  {
    if |samples| > 0 {
      RunCountsEverySample(samples[1..], minTemp, maxTemp);
    }
  }

  /** Three hot samples in a row give three `close` commands, not one. */
  lemma RepeatedHotSamplesRepeatClose()
    ensures Run([30, 28, 26], 15, 25) == [Close, Close, Close]
  {
    assert [30, 28, 26][1..] == [28, 26];
    assert [28, 26][1..] == [26];
  }
}
